=== FILE: README.md ===
# PowerPet feeder core, modelled in Dafny

The PowerPet feeder runs on a Raspberry Pi (`rpi_integrated.py`). This model covers three parts of it:

- **The trigger tick.** One iteration of the `monitor_schedule` loop: a defensive valve reset, then a scan of the feeding schedule against the current `(hour, minute)`. An entry fires once per slot; the triggered set stops repeats. Each firing drains water by 50, clamped at 0. The triggered set is emptied at second 59.
- **The actuator routines.** `stop_motor`, `rotate_clockwise`, `rotate_counter_clockwise`, `feed_food`, `givewater`, `flushwater`, and the sequence run for one fired entry. Each routine produces a trace of driver calls: `SetPin(pin, level)` and `Sleep(seconds)`. Durations are `real`, and the model computes `f / 300 * 1.75` exactly.
  - `Gpio.Exec` runs a trace. It tracks the eight controlled pins, how long the motor turned in each direction, and how long each valve was open.
  - `Gpio.OneAtATime` says that no two actuators are ever active together.
  - These two definitions are the independent reference for the routines.
- **The schedule update (POST branch).** The body is split on `,` and each piece is stripped. Pieces shaped like `[H:...]` are decoded in order, and the first error stops the update.
  - `Text` models the Python `str` operations the parser uses (`split`, `strip`, `rstrip`, `int`, `str`).
  - `ScheduleUpdate.Explains` states, independently of the parsing loop, what the installed entries and the reply must be.

Modules:
- `Wrappers`: `Option` and `Result`.
- `Schedule`: a schedule entry and its slot.
- `Text`: the Python string operations above.
- `ScheduleText`: one token, decoded and written.
- `ScheduleUpdate`: the whole body.
- `Gpio`: traces and their semantics.
- `Actuators`: the routines.
- `Engine`: the tick.

Behaviour of the code worth noting:
- **Duplicates.** Two entries at the same `(hour, minute)` do not both fire in one tick. The first firing adds the pair to the triggered set, so the second is skipped (lines 105 and 114).
- **Errors.** A schedule update that fails part-way leaves installed the entries decoded before the bad token. The list is emptied before parsing (line 131); the update is not atomic.
- **Undecodable body.** Only a body that is not UTF-8 keeps the previous schedule. Decoding (line 128) fails before the list is emptied.

## Model

| member | source | states |
|---|---|---|
| Engine.FirstMatch | rpi_integrated.py:103-105 | Returns `None` exactly when no entry is at the slot. Otherwise it returns an entry of the schedule at the slot. |
| Engine.FirstMatchIsFirst | rpi_integrated.py:103-105 | The entry found is the first at the slot: no earlier entry is scheduled there. |
| Engine.Scan | rpi_integrated.py:103-114 | The loop fires exactly `Due`: nothing if the slot already fired, else the first entry at the slot. The slot joins the triggered set iff something fired. Water drains once iff something fired. |
| Engine.Tick | rpi_integrated.py:97-117 | A tick fires at most one entry, and only one at the current slot from the schedule. The triggered set is emptied at second 59, and otherwise grows by exactly the fired slots. Only `waterLeft` changes, by one clamped drain per firing, and it never becomes negative. |
| Engine.DuplicatesFireOnce | rpi_integrated.py:103-114 | Two entries at the current, untriggered slot give exactly one firing, of an entry no later than the first of the two. |
| Engine.OncePerMinute | rpi_integrated.py:103-116 | Any number of ticks inside one minute fire at most one entry in total. They fire none if the slot was already triggered or nothing is scheduled at it. |
| Engine.RearmedAfterClear | rpi_integrated.py:115-116 | After a tick at second 59, the next tick at a scheduled slot fires that slot's first entry, whatever was triggered before. |
| Engine.ValveResetEffect | rpi_integrated.py:99-102 | The reset at the top of each tick drives the four valve lines low and leaves the motor inputs and the accumulated times alone. |
| Engine.TickActuation | rpi_integrated.py:99-110 | Starting with the motor stopped, a tick leaves every controlled pin low. Each valve is open 5 s per firing. Both motor directions run equally long: the fired entry's feed duration, or zero. |
| Engine.TickOneAtATime | rpi_integrated.py:99-117 | Starting with the motor stopped and at most one valve open, no two actuators are ever active at once during a tick. |
| Engine.MorningScenario | rpi_integrated.py:9-116 | With entries at 07:30 (150) and 18:00 (50), the tick at 07:30:00 fires the first entry with 0.875 s strokes and takes water from 400 to 350. A tick at 07:30:30 fires nothing. |
| Actuators.StopMotorEffect | rpi_integrated.py:46-50 | Stopping drives the four motor inputs low and changes nothing else. |
| Actuators.RotateClockwiseEffect | rpi_integrated.py:52-58 | A clockwise stroke of `d` adds exactly `d` of clockwise run and none counter-clockwise. It ends with the motor stopped; the valves keep their levels and accrue as they stand. |
| Actuators.RotateClockwiseSafe | rpi_integrated.py:52-58 | With the valves closed, the clockwise stroke never has two actuators active at once. |
| Actuators.RotateCounterClockwiseEffect | rpi_integrated.py:60-66 | A counter-clockwise stroke of `d` adds exactly `d` of counter-clockwise run and none clockwise. It ends with the motor stopped. |
| Actuators.RotateCounterClockwiseSafe | rpi_integrated.py:60-66 | With the valves closed, the counter-clockwise stroke never has two actuators active at once. |
| Actuators.FeedFoodEffect | rpi_integrated.py:68-77 | A weight below 100 produces no events at all, and any other weight produces some. Otherwise the motor runs `f / 300 * 1.75` s counter-clockwise and the same clockwise, with a 2 s pause, and ends stopped. The order of the strokes is stated by `FeedFoodOrder`. |
| Actuators.FeedFoodOrder | rpi_integrated.py:75-77 | The counter-clockwise stroke comes first and ends with the motor stopped, before any clockwise run. The 2 s pause follows it with no motor run. So the whole clockwise run that `FeedFoodEffect` counts comes after the pause. |
| Actuators.FeedFoodSafe | rpi_integrated.py:68-77 | With the valves closed, feeding never has two actuators active at once. |
| Actuators.WaterEffect | rpi_integrated.py:80-85 | Watering holds the water valve open exactly 5 s and ends with both water lines low. Every other pin keeps its level. |
| Actuators.WaterSafe | rpi_integrated.py:80-85 | With the motor stopped and the flush valve closed, watering never has two actuators active at once. |
| Actuators.FlushEffect | rpi_integrated.py:87-92 | Flushing holds the flush valve open exactly 5 s and ends with both flush lines low. Every other pin keeps its level. |
| Actuators.FlushSafe | rpi_integrated.py:87-92 | With the motor stopped and the water valve closed, flushing never has two actuators active at once. |
| Actuators.FireSequenceEffect | rpi_integrated.py:107-110 | From rest, one fired entry runs equal reverse and forward strokes of the guarded feed duration. The water and flush valves are each open 5 s, and every pin ends low. The whole sequence takes the feed time plus 15 s. The order of the steps is stated by `FireSequenceOrder`. |
| Actuators.FireSequenceOrder | rpi_integrated.py:107-110 | From rest, feeding comes first and ends at rest with no valve opened. Watering comes next, opening only the water valve for 5 s and ending at rest. A 5 s pause follows that changes nothing but the time. So the flush valve, which `FireSequenceEffect` shows open 5 s in total, opens only after the pause. |
| Actuators.FireSequenceSafe | rpi_integrated.py:107-110 | From rest, one fired entry never has two actuators active at once. |
| Text.SplitPieces | rpi_integrated.py:132 | `split` yields separator-free pieces whose join is the input. It yields one piece iff the separator does not occur. |
| Text.SplitJoin | rpi_integrated.py:132-137 | Splitting a join of separator-free pieces gives those pieces back. |
| Text.SplitAppend | rpi_integrated.py:132 | Splitting `a + sep + b` gives the pieces of `a` followed by the pieces of `b`. |
| Text.TrimLeftKeepsSuffix | rpi_integrated.py:133 | The left strip keeps a suffix. Everything it dropped is whitespace, and what it kept does not start with whitespace. |
| Text.TrimRightKeepsPrefix | rpi_integrated.py:133-137 | The right strip, and `rstrip("]")`, keep a prefix. Everything dropped is in the class, and what is kept does not end with it. |
| Text.SeparatorNotSkipped | rpi_integrated.py:135-137 | `strip()` removes a leading U+001C, but `int()` refuses it: `int("\x1c7")` fails while `int(" 7\n")` is 7. |
| Text.ParseIntOfIntToString | rpi_integrated.py:111-112 | `int(str(n)) == n`, so keeping `water_left` as decimal text loses nothing. |
| ScheduleText.TokenRoundTrip | rpi_integrated.py:133-138 | A written token has the accepted shape, is unchanged by `strip()` and has no comma. It decodes to the entry it was written from. |
| ScheduleText.BadHour | rpi_integrated.py:135 | An hour field `int()` refuses fails the token with that text, whatever follows. |
| ScheduleText.BadMinute | rpi_integrated.py:136 | A minute field `int()` refuses fails the token with that text, whatever follows. |
| ScheduleText.TwoSegmentToken | rpi_integrated.py:136 | `[H:h;M:m]` fails on the minute field `m]` with a value error, before the missing third segment is noticed. |
| ScheduleText.UnlabelledMinute | rpi_integrated.py:136 | A second segment without a colon is an index error, whatever follows it. |
| ScheduleText.MinuteWithoutLabel | rpi_integrated.py:136 | `[H:7;30;F:150]` is an index error. |
| ScheduleText.BadFeed | rpi_integrated.py:137 | A feed field that `int()` refuses once its closing `]` are stripped fails the token with the stripped text. |
| ScheduleText.LettersForFeed | rpi_integrated.py:137 | `[H:7;M:30;F:abc]` fails with a value error on `abc`. |
| ScheduleText.LabelsIgnored | rpi_integrated.py:135-137 | The labels in place of `M` and `F` are never checked: any labels free of `:` and `;` give the same entry. |
| ScheduleText.OtherLabels | rpi_integrated.py:135-137 | `[H:7;X:30;Y:150]` decodes to `(7, 30, 150)`. |
| ScheduleText.UnlabelledFeed | rpi_integrated.py:137 | A third segment without a colon is an index error, even though every number is well formed. |
| ScheduleUpdate.Install | rpi_integrated.py:131-143 | The loop installs decoded entries in order until the first error. The result satisfies `Explains` for the list of decodings. |
| ScheduleUpdate.ExplainsUnique | rpi_integrated.py:131-143 | At most one result satisfies `Explains` for a list of decodings. The parse outcome is determined by it. |
| ScheduleUpdate.Update | rpi_integrated.py:127-143 | A body that is not UTF-8 keeps the current schedule and is refused. Any other body is parsed from an empty schedule, with the outcome `Explains` requires. |
| ScheduleUpdate.ParseFormat | rpi_integrated.py:131-140 | Parsing a written schedule installs exactly that schedule, in order, and is accepted. This includes the empty schedule. |
| ScheduleUpdate.FailureKeepsPrefix | rpi_integrated.py:131-143 | Written entries followed by a well-shaped token that fails: the update is refused with that token's error. Exactly the earlier entries stay installed, none if the bad token is first. |
| ScheduleUpdate.IgnoredPiece | rpi_integrated.py:132-134 | A piece without the token shape is skipped. Putting it in front of a body changes neither the entries nor the reply. |
| ScheduleUpdate.TokensSkip | rpi_integrated.py:133-134 | A piece without the token shape contributes no token wherever it stands among the pieces. The tokens of the rest are unchanged. |
| ScheduleUpdate.SkippedBetween | rpi_integrated.py:132-134 | A comma-free piece without the token shape between any two parts of a body changes neither the entries nor the reply. |
| ScheduleUpdate.SkippedLast | rpi_integrated.py:132-134 | A comma-free piece without the token shape at the end of any body changes neither the entries nor the reply. |
| ScheduleUpdate.TrailingComma | rpi_integrated.py:132-140 | `A,` installs `A`'s entry and is accepted: the empty last piece is skipped. |
| ScheduleUpdate.EmptyPieceBetween | rpi_integrated.py:132-140 | `A,,B` installs both entries in order and is accepted: the empty piece is skipped. |
| ScheduleUpdate.TwoTokens | rpi_integrated.py:132-140 | `A,B` installs both entries in order and is accepted. |
| ScheduleUpdate.TwoTokensWithSpace | rpi_integrated.py:132-138 | `A, B` installs both entries in order. The space after the comma is stripped. |
| ScheduleUpdate.FirstTokenFails | rpi_integrated.py:131-143 | A body whose first piece strips to a well-shaped token that fails to decode is refused with that token's error, whatever follows the comma. Nothing is installed. |
| ScheduleUpdate.BadFirstHour | rpi_integrated.py:131-143 | A body whose first piece is a token with an hour field `int()` refuses is refused with that field's error. This holds for the token alone and for the token followed by a comma and any text. Nothing is installed. |
| ScheduleUpdate.SeparatorBeforeHour | rpi_integrated.py:131-143 | The body `[H:\x1c7;M:30;F:150]` is refused and installs nothing, because `int()` does not skip the separator. |
| ScheduleUpdate.TwoEntryBody | rpi_integrated.py:132-140 | The body `[H:7;M:30;F:150], [H:18;M:0;F:50]` installs `(7, 30, 150)` and `(18, 0, 50)` and is accepted. |
| Actuators.StopMotor | rpi_integrated.py:46-50 | No contract of its own; see `StopMotorEffect`. |
| Actuators.RotateClockwise | rpi_integrated.py:52-58 | No contract of its own; see `RotateClockwiseEffect` and `RotateClockwiseSafe`. |
| Actuators.RotateCounterClockwise | rpi_integrated.py:60-66 | No contract of its own; see `RotateCounterClockwiseEffect` and `RotateCounterClockwiseSafe`. |
| Actuators.FeedFood | rpi_integrated.py:68-77 | No contract of its own; see `FeedFoodEffect`, `FeedFoodOrder` and `FeedFoodSafe`. |
| Actuators.GiveWater | rpi_integrated.py:80-85 | No contract of its own; see `WaterEffect` and `WaterSafe`. |
| Actuators.FlushWater | rpi_integrated.py:87-92 | No contract of its own; see `FlushEffect` and `FlushSafe`. |
| Actuators.FireSequence | rpi_integrated.py:107-110 | No contract of its own; see `FireSequenceEffect`, `FireSequenceOrder` and `FireSequenceSafe`. |
| Engine.ValveReset | rpi_integrated.py:99-102 | No contract of its own; see `ValveResetEffect`. |
| ScheduleText.ParseToken | rpi_integrated.py:135-138 | No contract of its own; see `TokenRoundTrip`, `BadHour`, `BadMinute`, `TwoSegmentToken` and `UnlabelledFeed`. |
| ScheduleUpdate.Parse | rpi_integrated.py:131-140 | No contract of its own; see `ExplainsUnique`, `ParseFormat` and `FailureKeepsPrefix`. |
| Text.Split | rpi_integrated.py:132 | Always yields at least one piece; see `SplitPieces` and `SplitJoin`. |
| Text.Strip | rpi_integrated.py:133 | No contract of its own; see `TrimLeftKeepsSuffix` and `TrimRightKeepsPrefix`. |
| Text.ParseInt | rpi_integrated.py:135-137 | No contract of its own; see `ParseIntOfIntToString` and `SeparatorNotSkipped`. |
| Engine.Drain | rpi_integrated.py:111-112 | No contract of its own; see `Scan` and `Tick`, which state the clamped drain per firing. |
| Engine.FiredTrace | rpi_integrated.py:107-110 | No contract of its own; see `TickActuation` and `TickOneAtATime`. |
| Engine.Run | rpi_integrated.py:96-117 | No contract of its own; see `OncePerMinute`. |
| ScheduleUpdate.Tokens | rpi_integrated.py:132-134 | No contract of its own; see `TokensCons`, `IgnoredPiece`, `TokensSkip` and `FirstTokenFails`. |
| ScheduleText.HasTokenShape | rpi_integrated.py:134 | No contract of its own; see `TokenRoundTrip` and `IgnoredPiece`. |
| ScheduleText.FieldText | rpi_integrated.py:135-137 | No contract of its own; see `FieldOf` and `UnlabelledMinute`. |
| ScheduleText.IntField | rpi_integrated.py:135-137 | No contract of its own; see `NumberField`, `BadField` and `BadClosingField`. |
| Text.IntToString | rpi_integrated.py:112 | `str(n)` is non-empty, ends in a digit, and is all digits apart from a leading `-`; see `ParseIntOfIntToString` for the round trip. |

## Left out

- HTTP plumbing is not modelled: Flask routing, the GET branch, JSON encoding and status codes. The update's reply is modelled only as accepted or refused with an error.
- GPIO hardware calls are not modelled: pin setup at start-up (`initialize_pins`) and `GPIO.cleanup()`. The model starts from all pins low, which is what initialisation leaves. `GPIO.output` is modelled only as a `SetPin` event, and a write to an uncontrolled pin has no tracked effect.
- Time is not modelled beyond the trace. `time.sleep` becomes a `Sleep` event, and `datetime.now()` becomes the tick's `Clock` parameter. Real elapsed time, and the drift caused by a firing tick taking many seconds, are not modelled.
- The daemon thread and the globals it shares with the request handler are not modelled. The model is single-threaded.
- `print` logging is not modelled.
- The UTF-8 decoding of the request body is not modelled. It is an `Option<string>` parameter of `ScheduleUpdate.Update`, and `None` stands for a body that does not decode.
- Text.ParseInt: Python's `int()` also accepts non-ASCII Unicode decimal digits, and from Python 3.11 it refuses more than 4300 digits by default (a configurable limit). Neither is modelled. What is modelled is surrounding whitespace (`IsNumberSpace`: `str.isspace` without U+001C to U+001F, which `int()` does not skip), an optional sign and ASCII digits, with single underscores between them.
- Actuators.FeedDuration: the source computes `f / 300 * 1.75` in binary floating point (0.5833333333333333 for `f` = 100). The model uses exact reals, so that rounding is not modelled.
- Engine.Status: `water_left` is stored by the source as decimal text and read back with `int()`. The model keeps it as an integer; `Text.ParseIntOfIntToString` shows the round trip is exact. The other status fields are opaque strings the tick never changes.
- Exceptions raised inside the actuator routines are not modelled. The source has no error handling there, and an exception would end the monitoring thread.
- Actuators.FeedFood: the parser accepts any feed weight, but Python's `time.sleep` raises `OverflowError` for a duration of 2^63 ns (about 9.22e9 s) or more. `f / 300 * 1.75` reaches that from about `f` = 1.58e12, and `f / 300` itself raises `OverflowError` once `f` is above about 5.4e310. The source then raises at line 65, after line 62 has set IN2 high and before `stop_motor()`. The monitoring thread ends with the motor turning counter-clockwise and `water_left` unchanged. The model has no such bound. `FeedFoodEffect`'s "ends stopped", `FireSequenceEffect`'s "every pin ends low" and `TickActuation`'s `AtRest` hold for the source only for feed weights below it.

=== FILE: actuators.dfy ===
/**
 * The actuator routines of the feeder as generators of driver-call traces: motor stop
 * and rotation, the weight-proportional feed stroke, the water and flush valves, and
 * the fixed sequence run for one fired schedule entry.
 */
module Actuators {
  import opened Gpio

  /** Feed weight below which no food is dispensed. */
  const MinFeedWeight: int := 100
  /** Seconds of motor run for a 300-unit feed. */
  const MaxRunTime: real := 1.75
  const ReferenceWeight: real := 300.0
  /** Pause between the two motor strokes, for the food to drop. */
  const DropPause: real := 2.0
  /** How long each valve is held open, and the pause between watering and flushing. */
  const ValveTime: real := 5.0

  /** Seconds each motor stroke lasts for feed weight `f`: `f / 300 * 1.75`, in exact rational arithmetic. */
  function FeedDuration(f: int): real {
    (f as real / ReferenceWeight) * MaxRunTime
  }

  /** Motor run per direction that a fired entry with weight `f` produces. */
  function FeedRun(f: int): real {
    if f < MinFeedWeight then 0.0 else FeedDuration(f)
  }

  /** Wall-clock seconds the feed step of weight `f` takes. */
  function FeedTime(f: int): real {
    if f < MinFeedWeight then 0.0 else 2.0 * FeedDuration(f) + DropPause
  }

  function StopMotor(): seq<Event> {
    [SetPin(In1, Low), SetPin(In2, Low), SetPin(In3, Low), SetPin(In4, Low)]
  }

  function RotateClockwise(d: real): seq<Event> {
    [SetPin(In1, High), SetPin(In2, Low), SetPin(In3, Low), SetPin(In4, Low), Sleep(d)] + StopMotor()
  }

  function RotateCounterClockwise(d: real): seq<Event> {
    [SetPin(In1, Low), SetPin(In2, High), SetPin(In3, Low), SetPin(In4, Low), Sleep(d)] + StopMotor()
  }

  /** Reverse stroke, pause, forward stroke of equal length; nothing at all below the weight guard. */
  function FeedFood(f: int): seq<Event> {
    if f < MinFeedWeight then []
    else
      var d := FeedDuration(f);
      RotateCounterClockwise(d) + [Sleep(DropPause)] + RotateClockwise(d)
  }

  function GiveWater(): seq<Event> {
    [SetPin(WaterPin, High), SetPin(WaterAuxPin, Low), Sleep(ValveTime), SetPin(WaterPin, Low), SetPin(WaterAuxPin, Low)]
  }

  function FlushWater(): seq<Event> {
    [SetPin(FlushPin, High), SetPin(FlushAuxPin, Low), Sleep(ValveTime), SetPin(FlushPin, Low), SetPin(FlushAuxPin, Low)]
  }

  /** What one fired schedule entry with feed weight `f` does: feed, water, pause, flush. */
  function FireSequence(f: int): seq<Event> {
    FeedFood(f) + GiveWater() + [Sleep(ValveTime)] + FlushWater()
  }

  /**
   * `m` after a pause of `d` seconds that writes no pin: each valve held open accrues
   * `d` of open time, and the clock advances by `d`.
   */
  function ValvesAccrue(m: Machine, d: real): Machine {
    m.(waterOpen := m.waterOpen + Accrue(m.pins.water == High, d),
       flushOpen := m.flushOpen + Accrue(m.pins.flush == High, d),
       elapsed := m.elapsed + d)
  }

  /** Stopping the motor drives the four motor inputs low and changes nothing else. */
  lemma StopMotorEffect(m: Machine)
    ensures Exec(StopMotor(), m) == m.(pins := Stopped(m.pins))
    ensures MotorIdle(Exec(StopMotor(), m))
  {
    Exec4(SetPin(In1, Low), SetPin(In2, Low), SetPin(In3, Low), SetPin(In4, Low), m);
  }

  /**
   * A clockwise stroke of `d` seconds turns the motor clockwise for exactly `d`, never
   * counter-clockwise, and leaves the motor stopped; the valve lines keep their level
   * and accrue open time as they stand.
   */
  lemma RotateClockwiseEffect(d: real, m: Machine)
    ensures Exec(RotateClockwise(d), m)
      == ValvesAccrue(m, d).(pins := Stopped(m.pins), clockwise := m.clockwise + d)
  {
    var start := [SetPin(In1, High), SetPin(In2, Low), SetPin(In3, Low), SetPin(In4, Low), Sleep(d)];
    ExecAppend(start, StopMotor(), m);
    Exec5(SetPin(In1, High), SetPin(In2, Low), SetPin(In3, Low), SetPin(In4, Low), Sleep(d), m);
    StopMotorEffect(Exec(start, m));
  }

  /** With the valves closed, the clockwise stroke never has a second actuator active. */
  lemma RotateClockwiseSafe(d: real, m: Machine)
    requires ValvesClosed(m)
    ensures OneAtATime(RotateClockwise(d), m)
  {
    var start := [SetPin(In1, High), SetPin(In2, Low), SetPin(In3, Low), SetPin(In4, Low), Sleep(d)];
    ExecAppend(start, StopMotor(), m);
    Exec5(SetPin(In1, High), SetPin(In2, Low), SetPin(In3, Low), SetPin(In4, Low), Sleep(d), m);
    Safe5(SetPin(In1, High), SetPin(In2, Low), SetPin(In3, Low), SetPin(In4, Low), Sleep(d), m);
    Safe4(SetPin(In1, Low), SetPin(In2, Low), SetPin(In3, Low), SetPin(In4, Low), Exec(start, m));
  }

  /** The counter-clockwise stroke, symmetric to `RotateClockwiseEffect`. */
  lemma RotateCounterClockwiseEffect(d: real, m: Machine)
    ensures Exec(RotateCounterClockwise(d), m)
      == ValvesAccrue(m, d).(pins := Stopped(m.pins), counterClockwise := m.counterClockwise + d)
  {
    var start := [SetPin(In1, Low), SetPin(In2, High), SetPin(In3, Low), SetPin(In4, Low), Sleep(d)];
    ExecAppend(start, StopMotor(), m);
    Exec5(SetPin(In1, Low), SetPin(In2, High), SetPin(In3, Low), SetPin(In4, Low), Sleep(d), m);
    StopMotorEffect(Exec(start, m));
  }

  /** With the valves closed, the counter-clockwise stroke never has a second actuator active. */
  lemma RotateCounterClockwiseSafe(d: real, m: Machine)
    requires ValvesClosed(m)
    ensures OneAtATime(RotateCounterClockwise(d), m)
  {
    var start := [SetPin(In1, Low), SetPin(In2, High), SetPin(In3, Low), SetPin(In4, Low), Sleep(d)];
    ExecAppend(start, StopMotor(), m);
    Exec5(SetPin(In1, Low), SetPin(In2, High), SetPin(In3, Low), SetPin(In4, Low), Sleep(d), m);
    Safe5(SetPin(In1, Low), SetPin(In2, High), SetPin(In3, Low), SetPin(In4, Low), Sleep(d), m);
    Safe4(SetPin(In1, Low), SetPin(In2, Low), SetPin(In3, Low), SetPin(In4, Low), Exec(start, m));
  }

  /**
   * The weight guard and the feed stroke: below 100 nothing is emitted at all; otherwise
   * the motor turns counter-clockwise and then clockwise for the same `f / 300 * 1.75`
   * seconds, with a 2-second pause, and ends stopped.
   */
  lemma FeedFoodEffect(f: int, m: Machine)
    ensures f < MinFeedWeight <==> FeedFood(f) == []
    ensures f >= MinFeedWeight ==>
      Exec(FeedFood(f), m)
        == ValvesAccrue(m, FeedTime(f)).(
             pins := Stopped(m.pins),
             counterClockwise := m.counterClockwise + FeedRun(f),
             clockwise := m.clockwise + FeedRun(f))
  {
    if f >= MinFeedWeight {
      var d := FeedDuration(f);
      var ccw := RotateCounterClockwise(d);
      var cw := RotateClockwise(d);
      assert FeedFood(f) == ccw + [Sleep(DropPause)] + cw;
      ExecAppend(ccw + [Sleep(DropPause)], cw, m);
      ExecAppend(ccw, [Sleep(DropPause)], m);
      RotateCounterClockwiseEffect(d, m);
      var m1 := Exec(ccw, m);
      var m2 := Exec([Sleep(DropPause)], m1);
      assert m2 == Step(m1, Sleep(DropPause));
      RotateClockwiseEffect(d, m2);
    }
  }

  /**
   * The order of the feed stroke: the whole counter-clockwise run comes first, then
   * the 2-second pause with the motor stopped, and only after that any clockwise run.
   */
  lemma FeedFoodOrder(f: int, m: Machine)
    ensures f >= MinFeedWeight ==>
      var d := FeedDuration(f);
      var stroke := |RotateCounterClockwise(d)|;
      var reversed := Exec(FeedFood(f)[..stroke], m);
      var paused := Exec(FeedFood(f)[..stroke + 1], m);
      && MotorIdle(reversed)
      && reversed.counterClockwise == m.counterClockwise + d
      && reversed.clockwise == m.clockwise
      && reversed.elapsed == m.elapsed + d
      && paused.counterClockwise == reversed.counterClockwise
      && paused.clockwise == m.clockwise
      && paused.elapsed == reversed.elapsed + DropPause
  {
    if f >= MinFeedWeight {
      var d := FeedDuration(f);
      var ccw := RotateCounterClockwise(d);
      var pause := [Sleep(DropPause)];
      var t := FeedFood(f);
      assert t == (ccw + pause) + RotateClockwise(d);
      TakeAppend(ccw + pause, RotateClockwise(d), |ccw| + 1);
      TakeAppend(ccw + pause, RotateClockwise(d), |ccw|);
      assert (ccw + pause)[..|ccw| + 1] == ccw + pause;
      assert (ccw + pause)[..|ccw|] == ccw;
      ExecAppend(ccw, pause, m);
      RotateCounterClockwiseEffect(d, m);
      var reversed := Exec(ccw, m);
      assert Exec(pause, reversed) == Step(reversed, Sleep(DropPause));
    }
  }

  /** With the valves closed, the feed step never has a second actuator active. */
  lemma FeedFoodSafe(f: int, m: Machine)
    requires ValvesClosed(m)
    ensures OneAtATime(FeedFood(f), m)
  {
    if f >= MinFeedWeight {
      var d := FeedDuration(f);
      var ccw := RotateCounterClockwise(d);
      var cw := RotateClockwise(d);
      assert FeedFood(f) == ccw + [Sleep(DropPause)] + cw;
      ExecAppend(ccw + [Sleep(DropPause)], cw, m);
      ExecAppend(ccw, [Sleep(DropPause)], m);
      RotateCounterClockwiseEffect(d, m);
      RotateCounterClockwiseSafe(d, m);
      var m1 := Exec(ccw, m);
      var m2 := Exec([Sleep(DropPause)], m1);
      assert m2 == Step(m1, Sleep(DropPause));
      RotateClockwiseSafe(d, m2);
    }
  }

  /**
   * Watering holds the water valve open for 5 seconds and closes it again; every other
   * pin keeps its level, and whatever else was running accrues the 5 seconds too.
   */
  lemma WaterEffect(m: Machine)
    ensures Exec(GiveWater(), m)
      == m.(pins := m.pins.(water := Low, waterAux := Low),
            clockwise := m.clockwise + Accrue(TurnsClockwise(m), ValveTime),
            counterClockwise := m.counterClockwise + Accrue(TurnsCounterClockwise(m), ValveTime),
            waterOpen := m.waterOpen + ValveTime,
            flushOpen := m.flushOpen + Accrue(m.pins.flush == High, ValveTime),
            elapsed := m.elapsed + ValveTime)
  {
    var m1 := m.(pins := m.pins.(water := High));
    assert Step(m, SetPin(WaterPin, High)) == m1;
    var m2 := m1.(pins := m1.pins.(waterAux := Low));
    assert Step(m1, SetPin(WaterAuxPin, Low)) == m2;
    var m3 := m2.(clockwise := m.clockwise + Accrue(TurnsClockwise(m), ValveTime),
                  counterClockwise := m.counterClockwise + Accrue(TurnsCounterClockwise(m), ValveTime),
                  waterOpen := m.waterOpen + ValveTime,
                  flushOpen := m.flushOpen + Accrue(m.pins.flush == High, ValveTime),
                  elapsed := m.elapsed + ValveTime);
    assert Step(m2, Sleep(ValveTime)) == m3;
    var m4 := m3.(pins := m3.pins.(water := Low));
    assert Step(m3, SetPin(WaterPin, Low)) == m4;
    assert Step(m4, SetPin(WaterAuxPin, Low)) == m4.(pins := m4.pins.(waterAux := Low));
    Exec5(SetPin(WaterPin, High), SetPin(WaterAuxPin, Low), Sleep(ValveTime), SetPin(WaterPin, Low), SetPin(WaterAuxPin, Low), m);
  }

  /** With the motor stopped and the flush valve closed, watering never has a second actuator active. */
  lemma WaterSafe(m: Machine)
    requires MotorIdle(m) && m.pins.flush == Low
    ensures OneAtATime(GiveWater(), m)
  {
    Safe5(SetPin(WaterPin, High), SetPin(WaterAuxPin, Low), Sleep(ValveTime), SetPin(WaterPin, Low), SetPin(WaterAuxPin, Low), m);
  }

  /** Flushing holds the flush valve open for 5 seconds and closes it again, symmetric to watering. */
  lemma FlushEffect(m: Machine)
    ensures Exec(FlushWater(), m)
      == m.(pins := m.pins.(flush := Low, flushAux := Low),
            clockwise := m.clockwise + Accrue(TurnsClockwise(m), ValveTime),
            counterClockwise := m.counterClockwise + Accrue(TurnsCounterClockwise(m), ValveTime),
            waterOpen := m.waterOpen + Accrue(m.pins.water == High, ValveTime),
            flushOpen := m.flushOpen + ValveTime,
            elapsed := m.elapsed + ValveTime)
  {
    var m1 := m.(pins := m.pins.(flush := High));
    assert Step(m, SetPin(FlushPin, High)) == m1;
    var m2 := m1.(pins := m1.pins.(flushAux := Low));
    assert Step(m1, SetPin(FlushAuxPin, Low)) == m2;
    var m3 := m2.(clockwise := m.clockwise + Accrue(TurnsClockwise(m), ValveTime),
                  counterClockwise := m.counterClockwise + Accrue(TurnsCounterClockwise(m), ValveTime),
                  waterOpen := m.waterOpen + Accrue(m.pins.water == High, ValveTime),
                  flushOpen := m.flushOpen + ValveTime,
                  elapsed := m.elapsed + ValveTime);
    assert Step(m2, Sleep(ValveTime)) == m3;
    var m4 := m3.(pins := m3.pins.(flush := Low));
    assert Step(m3, SetPin(FlushPin, Low)) == m4;
    assert Step(m4, SetPin(FlushAuxPin, Low)) == m4.(pins := m4.pins.(flushAux := Low));
    Exec5(SetPin(FlushPin, High), SetPin(FlushAuxPin, Low), Sleep(ValveTime), SetPin(FlushPin, Low), SetPin(FlushAuxPin, Low), m);
  }

  /** With the motor stopped and the water valve closed, flushing never has a second actuator active. */
  lemma FlushSafe(m: Machine)
    requires MotorIdle(m) && m.pins.water == Low
    ensures OneAtATime(FlushWater(), m)
  {
    Safe5(SetPin(FlushPin, High), SetPin(FlushAuxPin, Low), Sleep(ValveTime), SetPin(FlushPin, Low), SetPin(FlushAuxPin, Low), m);
  }

  /**
   * One fired entry, run from a device at rest: equal reverse and forward strokes of the
   * guarded feed duration, the water valve open 5 seconds, the flush valve open 5
   * seconds, and every controlled pin low at the end.
   */
  lemma FireSequenceEffect(f: int, m: Machine)
    requires AtRest(m)
    ensures var r := Exec(FireSequence(f), m);
      && AtRest(r)
      && r.counterClockwise == m.counterClockwise + FeedRun(f)
      && r.clockwise == m.clockwise + FeedRun(f)
      && r.waterOpen == m.waterOpen + ValveTime
      && r.flushOpen == m.flushOpen + ValveTime
      && r.elapsed == m.elapsed + FeedTime(f) + 3.0 * ValveTime
  {
    var feed := FeedFood(f);
    var pause := [Sleep(ValveTime)];
    ExecAppend(feed + GiveWater() + pause, FlushWater(), m);
    ExecAppend(feed + GiveWater(), pause, m);
    ExecAppend(feed, GiveWater(), m);
    FeedFoodEffect(f, m);
    var m1 := Exec(feed, m);
    WaterEffect(m1);
    var m2 := Exec(GiveWater(), m1);
    var m3 := Exec(pause, m2);
    assert m3 == Step(m2, Sleep(ValveTime));
    FlushEffect(m3);
  }

  /**
   * The order of one fired entry: first the whole feed step (both strokes, no valve
   * open), then the water valve's 5 seconds (no motor, no flush), then a 5-second pause
   * with everything at rest; the flush valve's 5 seconds, stated by
   * `FireSequenceEffect`, come last.
   */
  lemma FireSequenceOrder(f: int, m: Machine)
    requires AtRest(m)
    ensures var fed := |FeedFood(f)|;
      var watered := fed + |GiveWater()|;
      var m1 := Exec(FireSequence(f)[..fed], m);
      var m2 := Exec(FireSequence(f)[..watered], m);
      var m3 := Exec(FireSequence(f)[..watered + 1], m);
      && AtRest(m1) && AtRest(m2)
      && m1.counterClockwise == m.counterClockwise + FeedRun(f)
      && m1.clockwise == m.clockwise + FeedRun(f)
      && m1.waterOpen == m.waterOpen && m1.flushOpen == m.flushOpen
      && m1.elapsed == m.elapsed + FeedTime(f)
      && m2.counterClockwise == m1.counterClockwise && m2.clockwise == m1.clockwise
      && m2.waterOpen == m.waterOpen + ValveTime && m2.flushOpen == m.flushOpen
      && m2.elapsed == m1.elapsed + ValveTime
      && m3 == m2.(elapsed := m2.elapsed + ValveTime)
  {
    var feed := FeedFood(f);
    var pause := [Sleep(ValveTime)];
    FireSequencePrefixes(f);
    ExecAppend(feed + GiveWater(), pause, m);
    ExecAppend(feed, GiveWater(), m);
    FeedFoodEffect(f, m);
    var m1 := Exec(feed, m);
    WaterEffect(m1);
    var m2 := Exec(GiveWater(), m1);
    assert Exec(pause, m2) == Step(m2, Sleep(ValveTime));
  }

  /** The prefixes of a fire sequence that end after the feed, after watering, and after the pause. */
  lemma FireSequencePrefixes(f: int)
    ensures var feed := FeedFood(f); var fed := |feed|; var watered := fed + |GiveWater()|;
      && FireSequence(f)[..fed] == feed
      && FireSequence(f)[..watered] == feed + GiveWater()
      && FireSequence(f)[..watered + 1] == feed + GiveWater() + [Sleep(ValveTime)]
  {
    var feed := FeedFood(f);
    var pause := [Sleep(ValveTime)];
    var head := feed + GiveWater() + pause;
    assert FireSequence(f) == head + FlushWater();
    TakeAppend(head, FlushWater(), |feed| + |GiveWater()| + 1);
    TakeAppend(head, FlushWater(), |feed| + |GiveWater()|);
    TakeAppend(head, FlushWater(), |feed|);
    assert head[..|feed| + |GiveWater()| + 1] == head;
    TakeAppend(feed + GiveWater(), pause, |feed| + |GiveWater()|);
    TakeAppend(feed + GiveWater(), pause, |feed|);
    assert (feed + GiveWater())[..|feed| + |GiveWater()|] == feed + GiveWater();
    assert (feed + GiveWater())[..|feed|] == feed;
  }

  /** One fired entry, run from a device at rest, never has two actuators active at once. */
  lemma FireSequenceSafe(f: int, m: Machine)
    requires AtRest(m)
    ensures OneAtATime(FireSequence(f), m)
  {
    var feed := FeedFood(f);
    var pause := [Sleep(ValveTime)];
    ExecAppend(feed + GiveWater() + pause, FlushWater(), m);
    ExecAppend(feed + GiveWater(), pause, m);
    ExecAppend(feed, GiveWater(), m);
    FeedFoodEffect(f, m);
    FeedFoodSafe(f, m);
    var m1 := Exec(feed, m);
    WaterEffect(m1);
    WaterSafe(m1);
    var m2 := Exec(GiveWater(), m1);
    var m3 := Exec(pause, m2);
    assert m3 == Step(m2, Sleep(ValveTime));
    FlushSafe(m3);
  }
}

=== FILE: engine.dfy ===
/**
 * The trigger engine: one iteration of the once-per-second monitoring loop as a pure
 * transition over the triggered set and the status snapshot, and runs of such ticks.
 */
module Engine {
  import opened Wrappers
  import opened Schedule
  import opened Gpio
  import opened Actuators

  /** The wall-clock reading a tick starts with. */
  datatype Clock = Clock(hour: int, minute: int, second: int)

  /** A reading a real clock can produce. */
  predicate ValidClock(c: Clock) {
    0 <= c.hour < 24 && 0 <= c.minute < 60 && 0 <= c.second < 60
  }

  function SlotAt(c: Clock): Slot {
    (c.hour, c.minute)
  }

  /** The status snapshot served to clients; only `waterLeft` ever changes. */
  datatype Status = Status(batteryStatus: string, feedLeft: string, waterLeft: int, feedAck: string)

  const InitialStatus: Status := Status("OK", "200", 400, "Completed")

  /** Water units used by one fired entry. */
  const WaterPerFeed: int := 50

  /** The second at which the triggered set is cleared. */
  const ClearSecond: int := 59

  /** Seconds the loop sleeps at the end of each iteration. */
  const TickPause: real := 1.0

  /** `water_left` after one firing: 50 less, but never below zero. */
  function Drain(water: int): int {
    if water - WaterPerFeed > 0 then water - WaterPerFeed else 0
  }

  /** The first entry of `sched` scheduled at `slot`, if any. */
  function FirstMatch(sched: seq<Entry>, slot: Slot): (r: Option<Entry>)
    ensures r.None? <==> forall i :: 0 <= i < |sched| ==> SlotOf(sched[i]) != slot
    ensures r.Some? ==> r.value in sched && SlotOf(r.value) == slot
    decreases |sched|
  {
    if sched == [] then None
    else if SlotOf(sched[0]) == slot then Some(sched[0])
    else FirstMatch(sched[1..], slot)
  }

  /** The entry `FirstMatch` finds is the first at the slot: no earlier entry is scheduled there. */
  lemma {:induction false} FirstMatchIsFirst(sched: seq<Entry>, slot: Slot)
    requires FirstMatch(sched, slot).Some?
    ensures exists i :: (0 <= i < |sched| && sched[i] == FirstMatch(sched, slot).value
      && forall j :: 0 <= j < i ==> SlotOf(sched[j]) != slot)
    decreases |sched|
  {
    if SlotOf(sched[0]) != slot {
      FirstMatchIsFirst(sched[1..], slot);
      var i :| (0 <= i < |sched[1..]| && sched[1..][i] == FirstMatch(sched[1..], slot).value
        && forall j :: 0 <= j < i ==> SlotOf(sched[1..][j]) != slot);
      assert sched[i + 1] == FirstMatch(sched, slot).value;
      forall j | 0 <= j < i + 1 ensures SlotOf(sched[j]) != slot {
        if j > 0 {
          assert sched[j] == sched[1..][j - 1];
        }
      }
    } else {
      assert sched[0] == FirstMatch(sched, slot).value;
    }
  }

  /**
   * The entries a tick at `slot` should fire, stated without the loop: none when the
   * slot has already fired, otherwise the first entry scheduled at `slot`, if any.
   */
  function Due(sched: seq<Entry>, slot: Slot, triggered: set<Slot>): seq<Entry> {
    if slot in triggered then []
    else
      match FirstMatch(sched, slot)
      case None => []
      case Some(e) => [e]
  }

  datatype ScanResult = ScanResult(fired: seq<Entry>, triggered: set<Slot>, waterLeft: int)

  /**
   * The loop over the schedule inside one tick. An entry fires when its slot is the
   * current one and not yet triggered; each firing drains water and marks the slot, so
   * later entries at the same slot are skipped.
   */
  function Scan(sched: seq<Entry>, slot: Slot, triggered: set<Slot>, water: int): (r: ScanResult)
    ensures r.fired == Due(sched, slot, triggered)
    ensures r.triggered == if r.fired == [] then triggered else triggered + {slot}
    ensures r.waterLeft == if r.fired == [] then water else Drain(water)
    decreases |sched|
  {
    if sched == [] then ScanResult([], triggered, water)
    else
      var e := sched[0];
      if SlotOf(e) == slot && slot !in triggered then
        var rest := Scan(sched[1..], slot, triggered + {slot}, Drain(water));
        ScanResult([e] + rest.fired, rest.triggered, rest.waterLeft)
      else
        Scan(sched[1..], slot, triggered, water)
  }

  /** The defensive reset at the top of every tick: both valves' lines low. */
  function ValveReset(): seq<Event> {
    [SetPin(WaterPin, Low), SetPin(WaterAuxPin, Low), SetPin(FlushPin, Low), SetPin(FlushAuxPin, Low)]
  }

  /** The actuator sequences of the fired entries, in firing order. */
  function FiredTrace(fired: seq<Entry>): seq<Event>
    decreases |fired|
  {
    if fired == [] then [] else FireSequence(fired[0].feed) + FiredTrace(fired[1..])
  }

  /** What persists from one tick to the next. */
  datatype EngineState = EngineState(triggered: set<Slot>, status: Status)

  const InitialState: EngineState := EngineState({}, InitialStatus)

  datatype TickResult = TickResult(fired: seq<Entry>, trace: seq<Event>, next: EngineState)

  /**
   * One iteration of the monitoring loop at wall-clock `now`. At most one entry fires:
   * the first at the current slot, unless the slot already fired. The triggered set
   * gains exactly the fired slot, or is emptied when the second is 59; only
   * `waterLeft` of the status changes, by one clamped drain per firing.
   */
  function Tick(sched: seq<Entry>, now: Clock, st: EngineState): (r: TickResult)
    ensures |r.fired| <= 1
    ensures r.fired == Due(sched, SlotAt(now), st.triggered)
    ensures forall i :: 0 <= i < |r.fired| ==> SlotOf(r.fired[i]) == SlotAt(now) && r.fired[i] in sched
    ensures now.second == ClearSecond ==> r.next.triggered == {}
    ensures now.second != ClearSecond ==>
      r.next.triggered == st.triggered + (set i | 0 <= i < |r.fired| :: SlotOf(r.fired[i]))
    ensures r.next.status.batteryStatus == st.status.batteryStatus
    ensures r.next.status.feedLeft == st.status.feedLeft
    ensures r.next.status.feedAck == st.status.feedAck
    ensures r.next.status.waterLeft == if r.fired == [] then st.status.waterLeft else Drain(st.status.waterLeft)
    ensures st.status.waterLeft >= 0 ==> r.next.status.waterLeft >= 0
  {
    var s := Scan(sched, SlotAt(now), st.triggered, st.status.waterLeft);
    var triggered := if now.second == ClearSecond then {} else s.triggered;
    var trace := ValveReset() + FiredTrace(s.fired) + [Sleep(TickPause)];
    TickResult(s.fired, trace, EngineState(triggered, st.status.(waterLeft := s.waterLeft)))
  }

  /**
   * Two entries at the current slot in one schedule do not both fire: the tick fires
   * exactly one entry, and it sits no later than the earlier of the two.
   */
  lemma DuplicatesFireOnce(sched: seq<Entry>, i: int, j: int, now: Clock, st: EngineState)
    requires 0 <= i < j < |sched|
    requires SlotOf(sched[i]) == SlotAt(now) && SlotOf(sched[j]) == SlotAt(now)
    requires SlotAt(now) !in st.triggered
    ensures var r := Tick(sched, now, st);
      |r.fired| == 1 && exists k :: 0 <= k <= i && r.fired == [sched[k]]
  {
    var r := Tick(sched, now, st);
    FirstMatchIsFirst(sched, SlotAt(now));
    var e := FirstMatch(sched, SlotAt(now)).value;
    var k :| (0 <= k < |sched| && sched[k] == e && SlotOf(sched[k]) == SlotAt(now)
      && forall j' :: 0 <= j' < k ==> SlotOf(sched[j']) != SlotAt(now));
    assert k <= i;
    assert r.fired == [sched[k]];
  }

  /** The fired entries and final state of a sequence of ticks at the given clock readings. */
  datatype RunResult = RunResult(fired: seq<Entry>, state: EngineState)

  function Run(sched: seq<Entry>, clocks: seq<Clock>, st: EngineState): RunResult
    decreases |clocks|
  {
    if clocks == [] then RunResult([], st)
    else
      var t := Tick(sched, clocks[0], st);
      var rest := Run(sched, clocks[1..], t.next);
      RunResult(t.fired + rest.fired, rest.state)
  }

  /** Clock readings inside one minute, each second later than the one before. */
  predicate WithinOneMinute(clocks: seq<Clock>) {
    && (forall k :: 0 <= k < |clocks| ==> ValidClock(clocks[k]) && SlotAt(clocks[k]) == SlotAt(clocks[0]))
    && (forall k :: 0 <= k < |clocks| - 1 ==> clocks[k].second < clocks[k + 1].second)
  }

  /**
   * However many ticks fall inside one minute, at most one entry fires in all of them,
   * and none if that minute's slot was already triggered or nothing is scheduled at it.
   */
  lemma {:induction false} OncePerMinute(sched: seq<Entry>, clocks: seq<Clock>, st: EngineState)
    requires |clocks| > 0 && WithinOneMinute(clocks)
    ensures |Run(sched, clocks, st).fired| <= 1
    ensures SlotAt(clocks[0]) in st.triggered || FirstMatch(sched, SlotAt(clocks[0])).None?
      ==> Run(sched, clocks, st).fired == []
    decreases |clocks|
  {
    var slot := SlotAt(clocks[0]);
    var t := Tick(sched, clocks[0], st);
    if |clocks| > 1 {
      assert clocks[0].second != ClearSecond by {
        assert clocks[0].second < clocks[1].second && ValidClock(clocks[1]);
      }
      var rest := clocks[1..];
      assert WithinOneMinute(rest) by {
        forall k | 0 <= k < |rest| ensures SlotAt(rest[k]) == SlotAt(rest[0]) {
          assert rest[k] == clocks[k + 1];
        }
      }
      assert SlotAt(rest[0]) == slot;
      OncePerMinute(sched, rest, t.next);
      if t.fired != [] {
        assert slot in t.next.triggered by {
          assert SlotOf(t.fired[0]) == slot;
        }
      }
    }
  }

  /**
   * The tick at second 59 empties the triggered set, so the next tick whose minute has
   * an entry scheduled (the next minute, or the same time the next day) fires it.
   */
  lemma RearmedAfterClear(sched: seq<Entry>, last: Clock, now: Clock, st: EngineState)
    requires last.second == ClearSecond
    requires FirstMatch(sched, SlotAt(now)).Some?
    ensures var t := Tick(sched, last, st);
      Tick(sched, now, t.next).fired == [FirstMatch(sched, SlotAt(now)).value]
  {
  }

  /** The valve reset drives the four valve lines low and leaves the motor inputs alone. */
  lemma ValveResetEffect(m: Machine)
    ensures Exec(ValveReset(), m)
      == m.(pins := m.pins.(water := Low, waterAux := Low, flush := Low, flushAux := Low))
  {
    var m1 := m.(pins := m.pins.(water := Low));
    assert Step(m, SetPin(WaterPin, Low)) == m1;
    var m2 := m1.(pins := m1.pins.(waterAux := Low));
    assert Step(m1, SetPin(WaterAuxPin, Low)) == m2;
    var m3 := m2.(pins := m2.pins.(flush := Low));
    assert Step(m2, SetPin(FlushPin, Low)) == m3;
    assert Step(m3, SetPin(FlushAuxPin, Low)) == m3.(pins := m3.pins.(flushAux := Low));
    Exec4(SetPin(WaterPin, Low), SetPin(WaterAuxPin, Low), SetPin(FlushPin, Low), SetPin(FlushAuxPin, Low), m);
  }

  /** Driving lines low never adds an active actuator. */
  lemma ValveResetSafe(m: Machine)
    requires ActiveCount(m) <= 1
    ensures OneAtATime(ValveReset(), m)
  {
    Safe4(SetPin(WaterPin, Low), SetPin(WaterAuxPin, Low), SetPin(FlushPin, Low), SetPin(FlushAuxPin, Low), m);
  }

  /** The trace of at most one fired entry is that entry's fire sequence, or nothing. */
  lemma FiredTraceOfOne(fired: seq<Entry>)
    requires |fired| <= 1
    ensures FiredTrace(fired) == if fired == [] then [] else FireSequence(fired[0].feed)
  {
    if fired != [] {
      assert fired[1..] == [];
      assert FireSequence(fired[0].feed) + [] == FireSequence(fired[0].feed);
    }
  }

  /** The state at the end of the tick's trace, split at its three parts. */
  lemma TickTraceParts(r: TickResult, m: Machine)
    requires r.trace == ValveReset() + FiredTrace(r.fired) + [Sleep(TickPause)]
    ensures var m1 := Exec(ValveReset(), m); var m2 := Exec(FiredTrace(r.fired), m1);
      && Exec(r.trace, m) == Step(m2, Sleep(TickPause))
      && (OneAtATime(r.trace, m)
          <==> OneAtATime(ValveReset(), m) && OneAtATime(FiredTrace(r.fired), m1)
               && ActiveCount(Step(m2, Sleep(TickPause))) <= 1)
  {
    var fire := FiredTrace(r.fired);
    var pause := [Sleep(TickPause)];
    ExecAppend(ValveReset() + fire, pause, m);
    ExecAppend(ValveReset(), fire, m);
    var m2 := Exec(fire, Exec(ValveReset(), m));
    assert pause[1..] == [];
    assert Exec(pause, m2) == Step(m2, Sleep(TickPause));
  }

  /**
   * What a tick does to the device, from any state with the motor stopped: every
   * controlled pin ends low, the water and flush valves are each open 5 seconds per
   * fired entry, and the two motor directions run equally long, for the fired entry's
   * feed duration.
   */
  lemma TickActuation(sched: seq<Entry>, now: Clock, st: EngineState, m: Machine)
    requires MotorIdle(m)
    ensures var r := Tick(sched, now, st); var after := Exec(r.trace, m);
      && AtRest(after)
      && after.waterOpen == m.waterOpen + ValveTime * |r.fired| as real
      && after.flushOpen == m.flushOpen + ValveTime * |r.fired| as real
      && after.clockwise - m.clockwise == after.counterClockwise - m.counterClockwise
      && (r.fired == [] ==> after.clockwise == m.clockwise)
      && (forall i :: 0 <= i < |r.fired| ==> after.clockwise == m.clockwise + FeedRun(r.fired[i].feed))
  {
    var r := Tick(sched, now, st);
    TickTraceParts(r, m);
    ValveResetEffect(m);
    FiredTraceOfOne(r.fired);
    var m1 := Exec(ValveReset(), m);
    if r.fired != [] {
      FireSequenceEffect(r.fired[0].feed, m1);
    }
  }

  /**
   * No two actuators are ever active at once during a tick that starts with the motor
   * stopped and at most one valve open.
   */
  lemma TickOneAtATime(sched: seq<Entry>, now: Clock, st: EngineState, m: Machine)
    requires MotorIdle(m) && ActiveCount(m) <= 1
    ensures OneAtATime(Tick(sched, now, st).trace, m)
  {
    var r := Tick(sched, now, st);
    TickTraceParts(r, m);
    ValveResetEffect(m);
    ValveResetSafe(m);
    FiredTraceOfOne(r.fired);
    var m1 := Exec(ValveReset(), m);
    if r.fired != [] {
      FireSequenceEffect(r.fired[0].feed, m1);
      FireSequenceSafe(r.fired[0].feed, m1);
    }
  }

  /**
   * The morning scenario: with entries at 07:30 (150 units) and 18:00 (50 units), the
   * tick at 07:30:00 fires the first entry with 0.875-second strokes and takes water
   * from 400 to 350; a tick at 07:30:30 in the same minute fires nothing.
   */
  lemma MorningScenario()
    ensures var sched := [Entry(7, 30, 150), Entry(18, 0, 50)];
      var first := Tick(sched, Clock(7, 30, 0), InitialState);
      var second := Tick(sched, Clock(7, 30, 30), first.next);
      && first.fired == [Entry(7, 30, 150)]
      && FeedRun(first.fired[0].feed) == 0.875
      && first.next.status.waterLeft == 350
      && second.fired == []
      && second.next.status.waterLeft == 350
  {
    var sched := [Entry(7, 30, 150), Entry(18, 0, 50)];
    assert FirstMatch(sched, (7, 30)) == Some(Entry(7, 30, 150));
  }
}

=== FILE: gpio.dfy ===
/**
 * Actuator output as a trace of driver calls, and an execution semantics for such
 * traces. The semantics tracks the levels of the eight controlled pins and
 * accumulates, for every `Sleep`, how long the auger motor turned in each direction
 * and how long each valve was held open.
 */
module Gpio {

  datatype Level = Low | High

  /** One driver call: `GPIO.output(pin, level)` or `time.sleep(seconds)`. */
  datatype Event = SetPin(pin: int, level: Level) | Sleep(seconds: real)

  /** BCM numbers of the four motor-driver inputs. */
  const In1: int := 26
  const In2: int := 19
  const In3: int := 13
  const In4: int := 6

  /** Water valve and its companion line. */
  const WaterPin: int := 1
  const WaterAuxPin: int := 25

  /** Flush valve and its companion line. */
  const FlushPin: int := 7
  const FlushAuxPin: int := 8

  /** Levels of the eight controlled pins; all start low, as pin initialisation leaves them. */
  datatype Pins = Pins(
    in1: Level, in2: Level, in3: Level, in4: Level,
    water: Level, waterAux: Level, flush: Level, flushAux: Level)

  const AllLow: Pins := Pins(Low, Low, Low, Low, Low, Low, Low, Low)

  /** `GPIO.output(p, l)`: a write to a pin that is not controlled has no tracked effect. */
  function Write(ps: Pins, p: int, l: Level): Pins {
    if p == In1 then ps.(in1 := l)
    else if p == In2 then ps.(in2 := l)
    else if p == In3 then ps.(in3 := l)
    else if p == In4 then ps.(in4 := l)
    else if p == WaterPin then ps.(water := l)
    else if p == WaterAuxPin then ps.(waterAux := l)
    else if p == FlushPin then ps.(flush := l)
    else if p == FlushAuxPin then ps.(flushAux := l)
    else ps
  }

  /** The four motor inputs low, the valve lines untouched. */
  function Stopped(ps: Pins): Pins {
    ps.(in1 := Low, in2 := Low, in3 := Low, in4 := Low)
  }

  /**
   * Observable state of the device: the pin levels and the accumulated seconds of each
   * activity.
   */
  datatype Machine = Machine(
    pins: Pins,
    clockwise: real,
    counterClockwise: real,
    waterOpen: real,
    flushOpen: real,
    elapsed: real)

  predicate MotorIdle(m: Machine) {
    m.pins.in1 == Low && m.pins.in2 == Low && m.pins.in3 == Low && m.pins.in4 == Low
  }

  predicate ValvesClosed(m: Machine) {
    m.pins.water == Low && m.pins.waterAux == Low && m.pins.flush == Low && m.pins.flushAux == Low
  }

  /** Every controlled pin is low. */
  predicate AtRest(m: Machine) {
    m.pins == AllLow
  }

  /** The driver pattern that turns the motor clockwise: only IN1 high. */
  predicate TurnsClockwise(m: Machine) {
    m.pins.in1 == High && m.pins.in2 == Low && m.pins.in3 == Low && m.pins.in4 == Low
  }

  /** The driver pattern that turns the motor counter-clockwise: only IN2 high. */
  predicate TurnsCounterClockwise(m: Machine) {
    m.pins.in1 == Low && m.pins.in2 == High && m.pins.in3 == Low && m.pins.in4 == Low
  }

  /** Number of actuators active at once: motor (any input high), water valve, flush valve. */
  function ActiveCount(m: Machine): nat {
    (if MotorIdle(m) then 0 else 1)
    + (if m.pins.water == High then 1 else 0)
    + (if m.pins.flush == High then 1 else 0)
  }

  /** Seconds an activity accrues over a pause of `d` seconds. */
  function Accrue(active: bool, d: real): real {
    if active then d else 0.0
  }

  function Step(m: Machine, e: Event): Machine {
    match e
    case SetPin(p, l) => m.(pins := Write(m.pins, p, l))
    case Sleep(d) =>
      m.(clockwise := m.clockwise + Accrue(TurnsClockwise(m), d),
         counterClockwise := m.counterClockwise + Accrue(TurnsCounterClockwise(m), d),
         waterOpen := m.waterOpen + Accrue(m.pins.water == High, d),
         flushOpen := m.flushOpen + Accrue(m.pins.flush == High, d),
         elapsed := m.elapsed + d)
  }

  /** The state reached by issuing the events of `t` in order from `m`. */
  function Exec(t: seq<Event>, m: Machine): Machine
    decreases |t|
  {
    if t == [] then m else Exec(t[1..], Step(m, t[0]))
  }

  /** Every state visited while running `t` from `m` (including `m`) has at most one actuator active. */
  predicate OneAtATime(t: seq<Event>, m: Machine)
    decreases |t|
  {
    ActiveCount(m) <= 1 && (t == [] || OneAtATime(t[1..], Step(m, t[0])))
  }

  /** Running two traces back to back is running their concatenation. */
  lemma {:induction false} ExecAppend(a: seq<Event>, b: seq<Event>, m: Machine)
    ensures Exec(a + b, m) == Exec(b, Exec(a, m))
    ensures OneAtATime(a + b, m) <==> OneAtATime(a, m) && OneAtATime(b, Exec(a, m))
    decreases |a|
  {
    if a != [] {
      assert (a + b)[1..] == a[1..] + b;
      ExecAppend(a[1..], b, Step(m, a[0]));
    } else {
      assert a + b == b;
    }
  }

  /** A prefix of a concatenation that ends inside the first part is a prefix of that part. */
  lemma TakeAppend(a: seq<Event>, b: seq<Event>, k: nat)
    requires k <= |a|
    ensures (a + b)[..k] == a[..k]
  {
  }

  /** Unrolls `Exec` over a four-event trace. */
  lemma Exec4(e0: Event, e1: Event, e2: Event, e3: Event, m: Machine)
    ensures Exec([e0, e1, e2, e3], m) == Step(Step(Step(Step(m, e0), e1), e2), e3)
  {
    var m1 := Step(m, e0);
    var m2 := Step(m1, e1);
    var m3 := Step(m2, e2);
    assert [e3][1..] == [];
    assert Exec([e3], m3) == Step(m3, e3);
    assert [e2, e3][1..] == [e3];
    assert Exec([e2, e3], m2) == Exec([e3], m3);
    assert [e1, e2, e3][1..] == [e2, e3];
    assert Exec([e1, e2, e3], m1) == Exec([e2, e3], m2);
    assert [e0, e1, e2, e3][1..] == [e1, e2, e3];
  }

  /** Unrolls `Exec` over a five-event trace. */
  lemma Exec5(e0: Event, e1: Event, e2: Event, e3: Event, e4: Event, m: Machine)
    ensures Exec([e0, e1, e2, e3, e4], m) == Step(Step(Step(Step(Step(m, e0), e1), e2), e3), e4)
  {
    assert [e0, e1, e2, e3, e4][1..] == [e1, e2, e3, e4];
    Exec4(e1, e2, e3, e4, Step(m, e0));
  }

  /** Unrolls `OneAtATime` over a four-event trace. */
  lemma Safe4(e0: Event, e1: Event, e2: Event, e3: Event, m: Machine)
    ensures var m1 := Step(m, e0); var m2 := Step(m1, e1); var m3 := Step(m2, e2);
      OneAtATime([e0, e1, e2, e3], m) <==>
        ActiveCount(m) <= 1 && ActiveCount(m1) <= 1 && ActiveCount(m2) <= 1
        && ActiveCount(m3) <= 1 && ActiveCount(Step(m3, e3)) <= 1
  {
    var m1 := Step(m, e0);
    var m2 := Step(m1, e1);
    var m3 := Step(m2, e2);
    assert [e3][1..] == [];
    assert OneAtATime([e3], m3) <==> ActiveCount(m3) <= 1 && ActiveCount(Step(m3, e3)) <= 1;
    assert [e2, e3][1..] == [e3];
    assert OneAtATime([e2, e3], m2) <==> ActiveCount(m2) <= 1 && OneAtATime([e3], m3);
    assert [e1, e2, e3][1..] == [e2, e3];
    assert OneAtATime([e1, e2, e3], m1) <==> ActiveCount(m1) <= 1 && OneAtATime([e2, e3], m2);
    assert [e0, e1, e2, e3][1..] == [e1, e2, e3];
  }

  /** Unrolls `OneAtATime` over a five-event trace. */
  lemma Safe5(e0: Event, e1: Event, e2: Event, e3: Event, e4: Event, m: Machine)
    ensures var m1 := Step(m, e0); var m2 := Step(m1, e1); var m3 := Step(m2, e2);
      var m4 := Step(m3, e3);
      OneAtATime([e0, e1, e2, e3, e4], m) <==>
        ActiveCount(m) <= 1 && ActiveCount(m1) <= 1 && ActiveCount(m2) <= 1
        && ActiveCount(m3) <= 1 && ActiveCount(m4) <= 1 && ActiveCount(Step(m4, e4)) <= 1
  {
    assert [e0, e1, e2, e3, e4][1..] == [e1, e2, e3, e4];
    Safe4(e1, e2, e3, e4, Step(m, e0));
  }
}

=== FILE: schedule.dfy ===
/** Schedule entries, shared by the trigger engine and the schedule-text parser. */
module Schedule {

  /**
   * One feeding event: a time of day and a feed weight. The values are whatever the
   * parser read; nothing restricts them to 0..23, 0..59 or non-negative weights.
   */
  datatype Entry = Entry(hour: int, minute: int, feed: int)

  /** An `(hour, minute)` pair, the unit of matching and deduplication. */
  type Slot = (int, int)

  function SlotOf(e: Entry): Slot {
    (e.hour, e.minute)
  }
}

=== FILE: schedule_text.dfy ===
/**
 * One schedule token, `[H:<hour>;M:<minute>;F:<feed>]`: how the update handler
 * decodes it, how a schedule entry is written as one, and which malformed tokens it
 * refuses and why.
 */
module ScheduleText {
  import opened Wrappers
  import opened Text
  import opened Schedule

  /** Why an update was refused, after the Python exception that signals it. */
  datatype UpdateError =
    | UndecodableBody           // `UnicodeDecodeError` from decoding the body as UTF-8
    | IndexOutOfRange           // `IndexError`: a `;` segment or a `:` field is missing
    | InvalidLiteral(text: string)  // `ValueError`: `int()` refused `text`

  const TokenOpen: string := "[H:"

  /** The only pieces looked at: starting with `[H:` and ending with `]`. Others are skipped. */
  predicate HasTokenShape(t: string) {
    |t| >= |TokenOpen| && t[..|TokenOpen|] == TokenOpen && t[|t| - 1] == ']'
  }

  /** `segment.split(":")[1]`: the text after the first colon, up to the next one. */
  function FieldText(segment: string): Option<string> {
    var parts := Split(segment, ':');
    if |parts| < 2 then None else Some(parts[1])
  }

  /**
   * `int(segment.split(":")[1])`, with the field first right-stripped of `]` when
   * `closing` holds (the feed field, the token's last).
   */
  function IntField(segment: string, closing: bool): Result<int, UpdateError> {
    match FieldText(segment)
    case None => Err(IndexOutOfRange)
    case Some(field) =>
      var text := if closing then TrimRight(field, Only(']')) else field;
      match ParseInt(text)
      case None => Err(InvalidLiteral(text))
      case Some(n) => Ok(n)
  }

  /**
   * Decodes one token: hour from the first `;` segment, minute from the second, feed
   * from the third, in that order; segments past the third are ignored and the
   * `H`/`M`/`F` labels are not checked.
   */
  function ParseToken(t: string): Result<Entry, UpdateError> {
    var segments := Split(t, ';');
    match IntField(segments[0], false)
    case Err(e) => Err(e)
    case Ok(hour) =>
      if |segments| < 2 then Err(IndexOutOfRange)
      else
        match IntField(segments[1], false)
        case Err(e) => Err(e)
        case Ok(minute) =>
          if |segments| < 3 then Err(IndexOutOfRange)
          else
            match IntField(segments[2], true)
            case Err(e) => Err(e)
            case Ok(feed) => Ok(Entry(hour, minute, feed))
  }

  // ---------------------------------------------------------------------------
  // Writing an entry as a token, and reading it back
  // ---------------------------------------------------------------------------

  /** `[H:<hour>;M:<minute>;F:<feed>]` with the numbers in decimal. */
  function TokenText(e: Entry): string {
    TokenOpen + IntToString(e.hour) + ";M:" + IntToString(e.minute) + ";F:" + IntToString(e.feed) + "]"
  }

  /** Decimal text of an integer contains none of the format's punctuation. */
  lemma NumberFree(n: int)
    ensures var s := IntToString(n);
      ';' !in s && ':' !in s && ',' !in s && ']' !in s
  {
  }

  /** The three `;` segments of a written token. */
  function Segments(e: Entry): seq<string> {
    ["[H" + [':'] + IntToString(e.hour), "M" + [':'] + IntToString(e.minute),
     "F" + [':'] + (IntToString(e.feed) + "]")]
  }

  lemma TokenSplits(e: Entry)
    ensures Split(TokenText(e), ';') == Segments(e)
  {
    NumberFree(e.hour);
    NumberFree(e.minute);
    NumberFree(e.feed);
    var h, m, f := IntToString(e.hour), IntToString(e.minute), IntToString(e.feed);
    var first, second, third := "[H" + [':'] + h, "M" + [':'] + m, "F" + [':'] + (f + "]");
    TokenLayout(h, m, f);
    SplitThree(first, second, third, ';');
  }

  /** A written token's text regrouped as its three segments: `LabelledLayout` for `M` and `F`. */
  lemma TokenLayout(h: string, m: string, f: string)
    ensures TokenOpen + h + ";M:" + m + ";F:" + f + "]"
      == ("[H" + [':'] + h) + [';'] + (("M" + [':'] + m) + [';'] + ("F" + [':'] + (f + "]")))
  {
    assert TokenOpen + h + ";M:" + m + ";F:" + f + "]" == TokenOpen + h + ";" + "M" + ":" + m + ";" + "F" + ":" + f + "]";
    LabelledLayout(h, "M", m, "F", f);
  }

  /** A token's text, with labels `a` and `b` in place of `M` and `F`, regrouped as its three segments. */
  lemma LabelledLayout(h: string, a: string, m: string, b: string, f: string)
    ensures TokenOpen + h + ";" + a + ":" + m + ";" + b + ":" + f + "]"
      == ("[H" + [':'] + h) + [';'] + ((a + [':'] + m) + [';'] + (b + [':'] + (f + "]")))
  {
  }

  /** The field after the colon of `name:value`, when neither part has a colon. */
  lemma FieldOf(name: string, value: string)
    requires ':' !in name && ':' !in value
    ensures FieldText(name + [':'] + value) == Some(value)
  {
    assert Join([name, value], ':') == name + [':'] + value by { assert [name, value][1..] == [value]; }
    SplitJoin([name, value], ':');
  }

  /** A field `name:<decimal n>` decodes to `n`. */
  lemma NumberField(name: string, n: int)
    requires ':' !in name
    ensures IntField(name + [':'] + IntToString(n), false) == Ok(n)
  {
    NumberFree(n);
    FieldOf(name, IntToString(n));
    ParseIntOfIntToString(n);
  }

  /** A closing field `name:<decimal n>]` decodes to `n` once the `]` is stripped. */
  lemma FeedField(name: string, n: int)
    requires ':' !in name
    ensures IntField(name + [':'] + (IntToString(n) + "]"), true) == Ok(n)
  {
    var f := IntToString(n);
    NumberFree(n);
    assert ':' !in f + "]";
    FieldOf(name, f + "]");
    TrimRightOne(f, ']');
    ParseIntOfIntToString(n);
  }

  lemma TokenFields(e: Entry)
    ensures IntField(Segments(e)[0], false) == Ok(e.hour)
    ensures IntField(Segments(e)[1], false) == Ok(e.minute)
    ensures IntField(Segments(e)[2], true) == Ok(e.feed)
  {
    NumberField("[H", e.hour);
    NumberField("M", e.minute);
    FeedField("F", e.feed);
  }

  /** A written token: `[H:`, then text without commas, then `]`. */
  lemma TokenBody(e: Entry)
    ensures var body := IntToString(e.hour) + ";M:" + IntToString(e.minute) + ";F:" + IntToString(e.feed);
      TokenText(e) == TokenOpen + body + "]" && ',' !in body
  {
    NumberFree(e.hour);
    NumberFree(e.minute);
    NumberFree(e.feed);
  }

  lemma BracketedSurface(body: string)
    requires ',' !in body
    ensures var t := TokenOpen + body + "]";
      HasTokenShape(t) && Strip(t) == t && ',' !in t
  {
    var t := TokenOpen + body + "]";
    assert t[..|TokenOpen|] == TokenOpen;
    assert t[0] == '[' && t[|t| - 1] == ']';
    assert !IsSpace('[') && !IsSpace(']');
    StripUnchanged(t);
  }

  /** A written token has the accepted shape, no surrounding whitespace and no comma. */
  lemma TokenSurface(e: Entry)
    ensures HasTokenShape(TokenText(e))
    ensures Strip(TokenText(e)) == TokenText(e)
    ensures ',' !in TokenText(e)
  {
    TokenBody(e);
    BracketedSurface(IntToString(e.hour) + ";M:" + IntToString(e.minute) + ";F:" + IntToString(e.feed));
  }

  /** Each written token has the accepted shape, survives stripping, and decodes to its entry. */
  lemma TokenRoundTrip(e: Entry)
    ensures HasTokenShape(TokenText(e))
    ensures Strip(TokenText(e)) == TokenText(e)
    ensures ',' !in TokenText(e)
    ensures ParseToken(TokenText(e)) == Ok(e)
  {
    TokenSurface(e);
    TokenSplits(e);
    TokenFields(e);
  }

  /**
   * The `M` and `F` labels are never checked: any labels free of `:` and `;` in their
   * place give the same entry.
   */
  lemma LabelsIgnored(e: Entry, a: string, b: string)
    requires ':' !in a && ';' !in a && ':' !in b && ';' !in b
    ensures ParseToken(TokenOpen + IntToString(e.hour) + ";" + a + ":" + IntToString(e.minute)
      + ";" + b + ":" + IntToString(e.feed) + "]") == Ok(e)
  {
    var h, m, f := IntToString(e.hour), IntToString(e.minute), IntToString(e.feed);
    NumberFree(e.hour);
    NumberFree(e.minute);
    NumberFree(e.feed);
    LabelledLayout(h, a, m, b, f);
    SplitThree("[H" + [':'] + h, a + [':'] + m, b + [':'] + (f + "]"), ';');
    NumberField("[H", e.hour);
    NumberField(a, e.minute);
    FeedField(b, e.feed);
  }

  /** `[H:7;X:30;Y:150]` decodes like `[H:7;M:30;F:150]`. */
  lemma OtherLabels()
    ensures ParseToken("[H:7;X:30;Y:150]") == Ok(Entry(7, 30, 150))
  {
    OtherLabelsText();
    LabelsIgnored(Entry(7, 30, 150), "X", "Y");
  }

  lemma OtherLabelsText()
    ensures TokenOpen + IntToString(7) + ";" + "X" + ":" + IntToString(30)
      + ";" + "Y" + ":" + IntToString(150) + "]" == "[H:7;X:30;Y:150]"
  {
    assert IntToString(7) == "7" && IntToString(30) == "30" && IntToString(150) == "150";
  }

  lemma MorningToken()
    ensures TokenText(Entry(7, 30, 150)) == "[H:7;M:30;F:150]"
  {
    assert IntToString(7) == "7" && IntToString(30) == "30" && IntToString(150) == "150";
  }

  lemma EveningToken()
    ensures TokenText(Entry(18, 0, 50)) == "[H:18;M:0;F:50]"
  {
    assert IntToString(18) == "18" && IntToString(0) == "0" && IntToString(50) == "50";
  }

  // ---------------------------------------------------------------------------
  // Refused tokens
  // ---------------------------------------------------------------------------

  /** `ParseToken` stops at a minute field that does not decode. */
  lemma MinuteRefused(t: string, e: UpdateError)
    requires |Split(t, ';')| >= 2
    requires IntField(Split(t, ';')[0], false).Ok?
    requires IntField(Split(t, ';')[1], false) == Err(e)
    ensures ParseToken(t) == Err(e)
  {
  }

  /** `ParseToken` stops at a feed field that does not decode. */
  lemma FeedRefused(t: string, e: UpdateError)
    requires |Split(t, ';')| >= 3
    requires IntField(Split(t, ';')[0], false).Ok?
    requires IntField(Split(t, ';')[1], false).Ok?
    requires IntField(Split(t, ';')[2], true) == Err(e)
    ensures ParseToken(t) == Err(e)
  {
  }

  /** A field `name:text` whose text `int()` refuses fails with that text. */
  lemma BadField(name: string, text: string)
    requires ':' !in name && ':' !in text && ParseInt(text).None?
    ensures IntField(name + [':'] + text, false) == Err(InvalidLiteral(text))
  {
    FieldOf(name, text);
  }

  /** A token opening with a well-formed hour splits off that hour as its first segment. */
  lemma HourSplit(hour: int, rest: string)
    ensures Split(TokenOpen + IntToString(hour) + ";" + rest, ';') == ["[H" + [':'] + IntToString(hour)] + Split(rest, ';')
  {
    var h := IntToString(hour);
    NumberFree(hour);
    assert TokenOpen + h + ";" + rest == ("[H" + [':'] + h) + [';'] + rest;
    SplitCons("[H" + [':'] + h, ';', rest);
  }

  /** The `;` segments of `M:<text>;<tail>`. */
  lemma MinuteThen(text: string, tail: string)
    requires ';' !in text
    ensures Split("M:" + text + ";" + tail, ';') == ["M" + [':'] + text] + Split(tail, ';')
  {
    assert "M:" + text + ";" + tail == ("M" + [':'] + text) + [';'] + tail;
    SplitCons("M" + [':'] + text, ';', tail);
  }

  lemma Regroup2(h: string, m: string)
    ensures TokenOpen + h + ";M:" + m + "]" == TokenOpen + h + ";" + ("M" + [':'] + (m + "]"))
  {
  }

  lemma Regroup3(h: string, m: string, tail: string)
    ensures TokenOpen + h + ";M:" + m + ";" + tail == TokenOpen + h + ";" + ("M:" + m + ";" + tail)
  {
  }

  /** The `;` segments of `[H:<hour>;M:<minute>;<tail>`. */
  lemma MinuteSegment(hour: int, minute: string, tail: string)
    requires ';' !in minute
    ensures Split(TokenOpen + IntToString(hour) + ";M:" + minute + ";" + tail, ';')
      == ["[H" + [':'] + IntToString(hour), "M" + [':'] + minute] + Split(tail, ';')
  {
    Regroup3(IntToString(hour), minute, tail);
    HourSplit(hour, "M:" + minute + ";" + tail);
    MinuteThen(minute, tail);
    assert ["[H" + [':'] + IntToString(hour)] + (["M" + [':'] + minute] + Split(tail, ';'))
      == ["[H" + [':'] + IntToString(hour), "M" + [':'] + minute] + Split(tail, ';');
  }

  /** The `;` segments of `[H:<hour>;M:<minute>]`. */
  lemma LastMinuteSegment(hour: int, minute: int)
    ensures Split(TokenOpen + IntToString(hour) + ";M:" + IntToString(minute) + "]", ';')
      == ["[H" + [':'] + IntToString(hour), "M" + [':'] + (IntToString(minute) + "]")]
  {
    var rest := "M" + [':'] + (IntToString(minute) + "]");
    NumberFree(minute);
    assert ';' !in rest;
    Regroup2(IntToString(hour), IntToString(minute));
    HourSplit(hour, rest);
  }

  /**
   * A minute field that `int()` refuses rejects the token with that field's text,
   * whatever follows it.
   */
  lemma BadMinute(hour: int, minute: string, tail: string)
    requires ':' !in minute && ';' !in minute && ParseInt(minute).None?
    ensures ParseToken(TokenOpen + IntToString(hour) + ";M:" + minute + ";" + tail)
      == Err(InvalidLiteral(minute))
  {
    var t := TokenOpen + IntToString(hour) + ";M:" + minute + ";" + tail;
    MinuteSegment(hour, minute, tail);
    NumberField("[H", hour);
    BadField("M", minute);
    MinuteRefused(t, InvalidLiteral(minute));
  }

  /**
   * An hour field `int()` refuses fails the whole token with that text, before the
   * rest of the token is looked at.
   */
  lemma BadHour(hour: string, rest: string)
    requires ':' !in hour && ';' !in hour && ParseInt(hour).None?
    ensures ParseToken(TokenOpen + hour + ";" + rest) == Err(InvalidLiteral(hour))
  {
    var first := "[H" + [':'] + hour;
    assert TokenOpen + hour + ";" + rest == first + [';'] + rest;
    assert ';' !in first;
    SplitCons(first, ';', rest);
    BadField("[H", hour);
  }

  /** `int()` refuses a number followed by `]`. */
  lemma ClosedNumberRefused(n: int)
    ensures ParseInt(IntToString(n) + "]").None?
    ensures ':' !in IntToString(n) + "]"
  {
    var m := IntToString(n);
    NumberFree(n);
    var text := m + "]";
    assert text[0] == m[0] && text[|text| - 1] == ']';
    assert !IsNumberSpace(text[0]) && !IsNumberSpace(text[|text| - 1]);
    TrimUnchanged(text, NumberSpace);
    assert !IsDigitGroups(text);
    if text[0] == '-' || text[0] == '+' {
      assert text[1..][|text[1..]| - 1] == ']';
    }
  }

  /**
   * A token cut short after the minute, `[H:h;M:m]`: the minute field is read as `m]`,
   * which `int()` refuses.
   */
  lemma TwoSegmentToken(hour: int, minute: int)
    ensures ParseToken(TokenOpen + IntToString(hour) + ";M:" + IntToString(minute) + "]")
      == Err(InvalidLiteral(IntToString(minute) + "]"))
  {
    var text := IntToString(minute) + "]";
    var t := TokenOpen + IntToString(hour) + ";M:" + IntToString(minute) + "]";
    LastMinuteSegment(hour, minute);
    NumberField("[H", hour);
    ClosedNumberRefused(minute);
    BadField("M", text);
    MinuteRefused(t, InvalidLiteral(text));
  }

  /**
   * A third segment without a colon, as in `[H:7;M:30;150]`, is an `IndexError`: the
   * update is refused even though every number is well formed.
   */
  lemma UnlabelledFeed(hour: int, minute: int, rest: string)
    requires ':' !in rest && ';' !in rest
    ensures ParseToken(TokenOpen + IntToString(hour) + ";M:" + IntToString(minute) + ";" + rest)
      == Err(IndexOutOfRange)
  {
    var m := IntToString(minute);
    var t := TokenOpen + IntToString(hour) + ";M:" + m + ";" + rest;
    NumberFree(minute);
    MinuteSegment(hour, m, rest);
    assert Split(rest, ';') == [rest];
    NumberField("[H", hour);
    NumberField("M", minute);
    assert Split(rest, ':') == [rest];
    FeedRefused(t, IndexOutOfRange);
  }

  /**
   * A second segment without a colon, as in `[H:7;30;F:150]`, is an `IndexError`,
   * whatever follows it.
   */
  lemma UnlabelledMinute(hour: int, rest: string)
    requires ':' !in Split(rest, ';')[0]
    ensures ParseToken(TokenOpen + IntToString(hour) + ";" + rest) == Err(IndexOutOfRange)
  {
    var t := TokenOpen + IntToString(hour) + ";" + rest;
    var minute := Split(rest, ';')[0];
    HourSplit(hour, rest);
    assert Split(t, ';')[1] == minute;
    SplitPieces(minute, ':');
    NumberField("[H", hour);
    MinuteRefused(t, IndexOutOfRange);
  }

  /**
   * A feed field that `int()` refuses once its closing `]` are stripped, as in
   * `[H:7;M:30;F:abc]`, rejects the token with that stripped text.
   */
  lemma BadFeed(hour: int, minute: int, feed: string)
    requires ':' !in feed && ';' !in feed && ParseInt(TrimRight(feed, Only(']'))).None?
    ensures ParseToken(TokenOpen + IntToString(hour) + ";M:" + IntToString(minute) + ";F:" + feed + "]")
      == Err(InvalidLiteral(TrimRight(feed, Only(']'))))
  {
    var t := TokenOpen + IntToString(hour) + ";M:" + IntToString(minute) + ";F:" + feed + "]";
    FeedSegments(hour, minute, feed);
    NumberField("[H", hour);
    NumberField("M", minute);
    BadClosingField("F", feed);
    FeedRefused(t, InvalidLiteral(TrimRight(feed, Only(']'))));
  }

  /** The `;` segments of `[H:<hour>;M:<minute>;F:<feed>]`. */
  lemma FeedSegments(hour: int, minute: int, feed: string)
    requires ';' !in feed
    ensures Split(TokenOpen + IntToString(hour) + ";M:" + IntToString(minute) + ";F:" + feed + "]", ';')
      == ["[H" + [':'] + IntToString(hour), "M" + [':'] + IntToString(minute), "F" + [':'] + (feed + "]")]
  {
    var m := IntToString(minute);
    var last := "F" + [':'] + (feed + "]");
    NumberFree(minute);
    FeedLayout(IntToString(hour), m, feed);
    MinuteSegment(hour, m, last);
    assert ';' !in last;
    assert Split(last, ';') == [last];
  }

  lemma FeedLayout(h: string, m: string, feed: string)
    ensures TokenOpen + h + ";M:" + m + ";F:" + feed + "]" == TokenOpen + h + ";M:" + m + ";" + ("F" + [':'] + (feed + "]"))
  {
  }

  /** A closing field whose text `int()` refuses once its `]` are stripped fails with that text. */
  lemma BadClosingField(name: string, text: string)
    requires ':' !in name && ':' !in text && ParseInt(TrimRight(text, Only(']'))).None?
    ensures IntField(name + [':'] + (text + "]"), true) == Err(InvalidLiteral(TrimRight(text, Only(']'))))
  {
    assert ':' !in text + "]";
    FieldOf(name, text + "]");
    TrimRightAppend(text, ']');
  }

  /** `[H:7;M:30;F:abc]` is refused with the text `abc`. */
  lemma LettersForFeed()
    ensures ParseToken("[H:7;M:30;F:abc]") == Err(InvalidLiteral("abc"))
  {
    var feed := "abc";
    assert ParseInt(feed).None? by {
      TrimUnchanged(feed, NumberSpace);
      assert !IsDigit(feed[0]);
    }
    assert TrimRight(feed, Only(']')) == feed;
    LettersText();
    BadFeed(7, 30, feed);
  }

  lemma LettersText()
    ensures TokenOpen + IntToString(7) + ";M:" + IntToString(30) + ";F:" + "abc" + "]" == "[H:7;M:30;F:abc]"
  {
    assert IntToString(7) == "7" && IntToString(30) == "30";
  }

  /** A colon-free minute segment followed by `;` and anything: an `IndexError`. */
  lemma UnlabelledMinuteThen(hour: int, minute: string, tail: string)
    requires ':' !in minute && ';' !in minute
    ensures ParseToken(TokenOpen + IntToString(hour) + ";" + minute + ";" + tail) == Err(IndexOutOfRange)
  {
    var rest := minute + [';'] + tail;
    SplitCons(minute, ';', tail);
    assert TokenOpen + IntToString(hour) + ";" + minute + ";" + tail == TokenOpen + IntToString(hour) + ";" + rest;
    UnlabelledMinute(hour, rest);
  }

  /** `[H:7;30;F:150]` is refused with an `IndexError`. */
  lemma MinuteWithoutLabel()
    ensures ParseToken("[H:7;30;F:150]") == Err(IndexOutOfRange)
  {
    MinuteWithoutLabelText();
    UnlabelledMinuteThen(7, "30", "F:150]");
  }

  lemma MinuteWithoutLabelText()
    ensures TokenOpen + IntToString(7) + ";" + "30" + ";" + "F:150]" == "[H:7;30;F:150]"
  {
    assert IntToString(7) == "7";
  }
}

=== FILE: schedule_update.dfy ===
/**
 * The schedule-update request: the body text is split on commas, each piece is
 * stripped, pieces shaped like `[H:...]` are decoded into entries in order, and the
 * first decoding error stops the update. The schedule is emptied before parsing, so
 * after an error the entries decoded so far are what remains installed.
 */
module ScheduleUpdate {
  import opened Wrappers
  import opened Text
  import opened Schedule
  import opened ScheduleText

  /** The reply: 200 with an acknowledgement, or 400 with the error. */
  datatype Reply = Received | Rejected(error: UpdateError)

  /** The entries installed after parsing, and the reply sent. */
  datatype ParseResult = ParseResult(entries: seq<Entry>, reply: Reply)

  type Decoding = Result<Entry, UpdateError>

  /** The stripped pieces that have the token shape, in order: the ones the loop decodes. */
  function Tokens(pieces: seq<string>): seq<string>
    decreases |pieces|
  {
    if pieces == [] then []
    else
      var t := Strip(pieces[0]);
      (if HasTokenShape(t) then [t] else []) + Tokens(pieces[1..])
  }

  /**
   * What decoding each token gives. The loop decodes a token only once every earlier
   * one has decoded, but decoding is pure, so listing every decoding up front and
   * stopping at the first error installs the same entries.
   */
  function Decodings(toks: seq<string>): seq<Decoding> {
    seq(|toks|, i requires 0 <= i < |toks| => ParseToken(toks[i]))
  }

  /**
   * How the result of an update relates to the decodings of its tokens: either every
   * token decoded and the entries are their decodings in order, or the entries are the
   * decodings before the first failure, and the reply carries that failure's error.
   */
  predicate Explains(ds: seq<Decoding>, r: ParseResult) {
    && |r.entries| <= |ds|
    && (forall i :: 0 <= i < |r.entries| ==> ds[i] == Ok(r.entries[i]))
    && (r.reply.Received? ==> |r.entries| == |ds|)
    && (r.reply.Rejected? ==> |r.entries| < |ds| && ds[|r.entries|] == Err(r.reply.error))
  }

  /** At most one result fits a list of decodings: `Explains` pins the outcome down. */
  lemma ExplainsUnique(ds: seq<Decoding>, r1: ParseResult, r2: ParseResult)
    requires Explains(ds, r1) && Explains(ds, r2)
    ensures r1 == r2
  {
    var n := |r1.entries|;
    assert n == |r2.entries|;
    assert r1.entries == r2.entries by {
      forall i | 0 <= i < n ensures r1.entries[i] == r2.entries[i] {
        assert ds[i] == Ok(r1.entries[i]) && ds[i] == Ok(r2.entries[i]);
      }
    }
  }

  /** The parsing loop: entries are installed in order until the first decoding error. */
  function Install(ds: seq<Decoding>): (r: ParseResult)
    ensures Explains(ds, r)
    decreases |ds|
  {
    if ds == [] then ParseResult([], Received)
    else
      match ds[0]
      case Err(e) => ParseResult([], Rejected(e))
      case Ok(entry) =>
        var rest := Install(ds[1..]);
        var r := ParseResult([entry] + rest.entries, rest.reply);
        assert forall i :: 1 <= i < |r.entries| ==> r.entries[i] == rest.entries[i - 1] && ds[i] == ds[1..][i - 1];
        r
  }

  /** Every token decoded: all the entries are installed and the update is accepted. */
  lemma InstallAllOk(ds: seq<Decoding>, es: seq<Entry>)
    requires |ds| == |es| && forall i :: 0 <= i < |es| ==> ds[i] == Ok(es[i])
    ensures Install(ds) == ParseResult(es, Received)
  {
    ExplainsUnique(ds, Install(ds), ParseResult(es, Received));
  }

  /** A first failure after `es` decoded: exactly `es` stays installed and its error is the reply. */
  lemma InstallFirstError(ds: seq<Decoding>, es: seq<Entry>, e: UpdateError)
    requires |es| < |ds| && ds[|es|] == Err(e)
    requires forall i :: 0 <= i < |es| ==> ds[i] == Ok(es[i])
    ensures Install(ds) == ParseResult(es, Rejected(e))
  {
    ExplainsUnique(ds, Install(ds), ParseResult(es, Rejected(e)));
  }

  /** Parses a decoded request body. */
  function Parse(body: string): ParseResult {
    Install(Decodings(Tokens(Split(body, ','))))
  }

  /**
   * The whole update: `body` is the UTF-8 decoding of the request, `None` when it does
   * not decode. Decoding fails before the schedule is emptied, so only then does the
   * current schedule survive an error.
   */
  function Update(current: seq<Entry>, body: Option<string>): (r: ParseResult)
    ensures body.None? ==> r == ParseResult(current, Rejected(UndecodableBody))
    ensures body.Some? ==> Explains(Decodings(Tokens(Split(body.value, ','))), r)
  {
    match body
    case None => ParseResult(current, Rejected(UndecodableBody))
    case Some(text) => Parse(text)
  }

  // ---------------------------------------------------------------------------
  // The inverse: writing a schedule in the update format
  // ---------------------------------------------------------------------------

  function TokenTexts(es: seq<Entry>): (ts: seq<string>)
    ensures |ts| == |es|
    ensures forall i :: 0 <= i < |es| ==> ts[i] == TokenText(es[i])
  {
    seq(|es|, i requires 0 <= i < |es| => TokenText(es[i]))
  }

  /** A schedule as an update body: its tokens joined by commas. */
  function Format(es: seq<Entry>): string {
    if es == [] then "" else Join(TokenTexts(es), ',')
  }

  /** A piece that is already a bare token is kept as it is. */
  lemma TokensCons(t: string, more: seq<string>)
    requires HasTokenShape(t) && Strip(t) == t
    ensures Tokens([t] + more) == [t] + Tokens(more)
  {
    assert ([t] + more)[1..] == more;
  }

  /** Pieces that are already bare tokens pass the shape filter unchanged. */
  lemma {:induction false} TokensOfBare(ts: seq<string>, more: seq<string>)
    requires forall i :: 0 <= i < |ts| ==> HasTokenShape(ts[i]) && Strip(ts[i]) == ts[i]
    ensures Tokens(ts + more) == ts + Tokens(more)
    decreases |ts|
  {
    if ts == [] {
      assert ts + more == more;
    } else {
      assert ts + more == [ts[0]] + (ts[1..] + more);
      TokensCons(ts[0], ts[1..] + more);
      TokensOfBare(ts[1..], more);
      assert [ts[0]] + (ts[1..] + Tokens(more)) == ([ts[0]] + ts[1..]) + Tokens(more);
      assert [ts[0]] + ts[1..] == ts;
    }
  }

  /** Written tokens pass the shape filter unchanged, whatever pieces follow them. */
  lemma TokensOfTexts(es: seq<Entry>, more: seq<string>)
    ensures Tokens(TokenTexts(es) + more) == TokenTexts(es) + Tokens(more)
  {
    var ts := TokenTexts(es);
    forall i | 0 <= i < |ts| ensures HasTokenShape(ts[i]) && Strip(ts[i]) == ts[i] {
      TokenSurface(es[i]);
    }
    TokensOfBare(ts, more);
  }

  /** Written tokens decode to the entries they were written from. */
  lemma TextsDecode(es: seq<Entry>, more: seq<string>)
    ensures forall i :: 0 <= i < |es| ==> Decodings(TokenTexts(es) + more)[i] == Ok(es[i])
  {
    var ts := TokenTexts(es) + more;
    forall i | 0 <= i < |es| ensures Decodings(ts)[i] == Ok(es[i]) {
      assert ts[i] == TokenText(es[i]);
      TokenRoundTrip(es[i]);
    }
  }

  lemma CommaFreePieces(es: seq<Entry>, more: seq<string>)
    requires forall i :: 0 <= i < |more| ==> ',' !in more[i]
    ensures forall i :: 0 <= i < |TokenTexts(es) + more| ==> ',' !in (TokenTexts(es) + more)[i]
  {
    var pieces := TokenTexts(es) + more;
    forall i | 0 <= i < |pieces| ensures ',' !in pieces[i] {
      if i < |es| {
        TokenSurface(es[i]);
      } else {
        assert pieces[i] == more[i - |es|];
      }
    }
  }

  /** Parsing what `Format` writes installs exactly the schedule written, and is accepted. */
  lemma ParseFormat(es: seq<Entry>)
    ensures Parse(Format(es)) == ParseResult(es, Received)
  {
    if es == [] {
      assert Split("", ',') == [""];
      assert Strip("") == "";
      assert Tokens([""]) == [];
      assert Decodings([]) == [];
    } else {
      var ts := TokenTexts(es);
      assert ts + [] == ts;
      CommaFreePieces(es, []);
      SplitJoin(ts, ',');
      TokensOfTexts(es, []);
      TextsDecode(es, []);
      InstallAllOk(Decodings(ts), es);
    }
  }

  /**
   * Written entries followed by a token that fails: the update is refused with that
   * token's error and exactly the written entries stay installed, none if there were none.
   */
  lemma FailureKeepsPrefix(es: seq<Entry>, bad: string, err: UpdateError)
    requires ',' !in bad && HasTokenShape(Strip(bad)) && ParseToken(Strip(bad)) == Err(err)
    ensures Parse(Join(TokenTexts(es) + [bad], ',')) == ParseResult(es, Rejected(err))
  {
    var pieces := TokenTexts(es) + [bad];
    var toks := TokenTexts(es) + [Strip(bad)];
    assert Tokens(pieces) == toks by {
      TokensOfTexts(es, [bad]);
      assert Tokens([bad]) == [Strip(bad)];
    }
    assert Split(Join(pieces, ','), ',') == pieces by {
      CommaFreePieces(es, [bad]);
      SplitJoin(pieces, ',');
    }
    TextsDecode(es, [Strip(bad)]);
    assert Decodings(toks)[|es|] == Err(err);
    InstallFirstError(Decodings(toks), es, err);
  }

  /**
   * A piece that does not have the token shape once stripped is skipped silently:
   * putting it in front of a body changes neither the entries nor the reply.
   */
  lemma IgnoredPiece(junk: string, body: string)
    requires ',' !in junk && !HasTokenShape(Strip(junk))
    ensures Parse(junk + [','] + body) == Parse(body)
  {
    var pieces := Split(body, ',');
    SplitCons(junk, ',', body);
    assert ([junk] + pieces)[1..] == pieces;
    assert Tokens([junk] + pieces) == Tokens(pieces);
  }

  /** A piece without the token shape is skipped wherever it stands among the pieces. */
  lemma {:induction false} TokensSkip(a: seq<string>, junk: string, b: seq<string>)
    requires !HasTokenShape(Strip(junk))
    ensures Tokens(a + [junk] + b) == Tokens(a + b)
    decreases |a|
  {
    if a == [] {
      assert a + [junk] + b == [junk] + b && a + b == b;
      assert ([junk] + b)[1..] == b;
    } else {
      assert (a + [junk] + b)[0] == a[0] && (a + b)[0] == a[0];
      assert (a + [junk] + b)[1..] == a[1..] + [junk] + b;
      assert (a + b)[1..] == a[1..] + b;
      TokensSkip(a[1..], junk, b);
    }
  }

  /**
   * A comma-free piece without the token shape between two parts of a body, such as the
   * empty piece in `A,,B`, changes neither the entries nor the reply.
   */
  lemma SkippedBetween(front: string, junk: string, back: string)
    requires ',' !in junk && !HasTokenShape(Strip(junk))
    ensures Parse(front + [','] + junk + [','] + back) == Parse(front + [','] + back)
  {
    var fs, bs := Split(front, ','), Split(back, ',');
    var rest := junk + [','] + back;
    assert front + [','] + junk + [','] + back == front + [','] + rest;
    calc {
      Split(front + [','] + rest, ',');
      { SplitAppend(front, ',', rest); }
      fs + Split(rest, ',');
      { SplitCons(junk, ',', back); }
      fs + ([junk] + bs);
      fs + [junk] + bs;
    }
    assert Split(front + [','] + back, ',') == fs + bs by {
      SplitAppend(front, ',', back);
    }
    TokensSkip(fs, junk, bs);
  }

  /**
   * A comma-free piece without the token shape at the end of a body, such as the empty
   * piece after a trailing comma, changes neither the entries nor the reply.
   */
  lemma SkippedLast(body: string, junk: string)
    requires ',' !in junk && !HasTokenShape(Strip(junk))
    ensures Parse(body + [','] + junk) == Parse(body)
  {
    var ps := Split(body, ',');
    assert Split(body + [','] + junk, ',') == ps + [junk] + [] by {
      SplitAppend(body, ',', junk);
      assert Split(junk, ',') == [junk];
    }
    TokensSkip(ps, junk, []);
    assert ps + [] == ps;
  }

  /** A trailing comma, `A,`, leaves an empty last piece, which is skipped: `A` alone. */
  lemma TrailingComma(e: Entry)
    ensures Parse(TokenText(e) + ",") == ParseResult([e], Received)
  {
    var t := TokenText(e);
    assert !HasTokenShape(Strip(""));
    SkippedLast(t, "");
    assert t + [','] + "" == t + ",";
    assert Format([e]) == t by {
      assert TokenTexts([e]) == [t];
    }
    ParseFormat([e]);
  }

  /** An empty piece between two tokens, `A,,B`, is skipped: both entries install, in order. */
  lemma EmptyPieceBetween(e1: Entry, e2: Entry)
    ensures Parse(TokenText(e1) + ",," + TokenText(e2)) == ParseResult([e1, e2], Received)
  {
    var t1, t2 := TokenText(e1), TokenText(e2);
    assert !HasTokenShape(Strip(""));
    SkippedBetween(t1, "", t2);
    assert t1 + [','] + "" + [','] + t2 == t1 + ",," + t2;
    TwoTokens(e1, e2);
  }

  /** `A,B` installs both entries, in order. */
  lemma TwoTokens(e1: Entry, e2: Entry)
    ensures Parse(TokenText(e1) + [','] + TokenText(e2)) == ParseResult([e1, e2], Received)
  {
    var ts := TokenTexts([e1, e2]);
    BareTokens(e1, e2);
    assert ts + [] == ts;
    TextsDecode([e1, e2], []);
    InstallAllOk(Decodings(ts), [e1, e2]);
  }

  /** The tokens of `A,B` for two written tokens. */
  lemma BareTokens(e1: Entry, e2: Entry)
    ensures Tokens(Split(TokenText(e1) + [','] + TokenText(e2), ',')) == TokenTexts([e1, e2])
  {
    TokenSurface(e1);
    TokenSurface(e2);
    BarePair(TokenText(e1), TokenText(e2));
  }

  /** Two bare, comma-free tokens written as `A,B` give back the two tokens. */
  lemma BarePair(a: string, b: string)
    requires ',' !in a && HasTokenShape(a) && Strip(a) == a
    requires ',' !in b && HasTokenShape(b) && Strip(b) == b
    ensures Tokens(Split(a + [','] + b, ',')) == [a, b]
  {
    SplitCons(a, ',', b);
    assert Split(b, ',') == [b];
    TokensCons(a, [b]);
    TokensCons(b, []);
    assert [b] + [] == [b];
  }

  /**
   * A first piece that strips to a well-shaped token failing to decode rejects the
   * body with that error, whatever follows the comma after it: nothing is installed.
   */
  lemma FirstTokenFails(first: string, tail: string, err: UpdateError)
    requires ',' !in first && HasTokenShape(Strip(first)) && ParseToken(Strip(first)) == Err(err)
    ensures Parse(first + [','] + tail) == ParseResult([], Rejected(err))
  {
    var pieces := Split(tail, ',');
    SplitCons(first, ',', tail);
    assert ([first] + pieces)[1..] == pieces;
    var toks := Tokens([first] + pieces);
    assert toks == [Strip(first)] + Tokens(pieces);
    assert Decodings(toks)[0] == Err(err);
    InstallFirstError(Decodings(toks), [], err);
  }

  /**
   * A body whose first piece is a token with an hour `int()` refuses, alone or followed
   * by a comma and anything else: the update is refused with that hour's text and
   * nothing stays installed.
   */
  lemma BadFirstHour(hour: string, rest: string, tail: string)
    requires ':' !in hour && ';' !in hour && ',' !in hour && ParseInt(hour).None?
    requires ',' !in rest && |rest| > 0 && rest[|rest| - 1] == ']'
    ensures Parse(TokenOpen + hour + ";" + rest) == ParseResult([], Rejected(InvalidLiteral(hour)))
    ensures Parse(TokenOpen + hour + ";" + rest + "," + tail) == ParseResult([], Rejected(InvalidLiteral(hour)))
  {
    var t := TokenOpen + hour + ";" + rest;
    BadHour(hour, rest);
    assert HasTokenShape(t) && t[0] == '[' by {
      assert t[..|TokenOpen|] == TokenOpen;
      assert t[|t| - 1] == rest[|rest| - 1];
    }
    StripUnchanged(t);
    assert ',' !in t;
    assert Join([] + [t], ',') == t by {
      assert [] + [t] == [t];
    }
    FailureKeepsPrefix([], t, InvalidLiteral(hour));
    FirstTokenFails(t, tail, InvalidLiteral(hour));
    assert t + "," + tail == t + [','] + tail;
  }

  /**
   * The body `[H:<U+001C>7;M:30;F:150]`: `strip()` leaves the file separator alone
   * inside the token and `int()` refuses it, so the update is refused with nothing
   * installed.
   */
  lemma SeparatorBeforeHour()
    ensures var hour := [28 as char, '7'];
      Parse(TokenOpen + hour + ";" + "M:30;F:150]") == ParseResult([], Rejected(InvalidLiteral(hour)))
  {
    var hour, rest := [28 as char, '7'], "M:30;F:150]";
    assert ParseInt(hour).None? by {
      SeparatorNotSkipped();
    }
    assert ':' !in hour && ';' !in hour && ',' !in hour;
    assert ',' !in rest && rest[|rest| - 1] == ']';
    BadFirstHour(hour, rest, "");
  }

  /** Whitespace after a comma is stripped away: `A, B` installs both entries, in order. */
  lemma TwoTokensWithSpace(e1: Entry, e2: Entry)
    ensures Parse(TokenText(e1) + ", " + TokenText(e2)) == ParseResult([e1, e2], Received)
  {
    var ts := TokenTexts([e1, e2]);
    SpacedTokens(e1, e2);
    assert ts + [] == ts;
    TextsDecode([e1, e2], []);
    InstallAllOk(Decodings(ts), [e1, e2]);
  }

  /** The tokens of `A, B` for two written tokens. */
  lemma SpacedTokens(e1: Entry, e2: Entry)
    ensures Tokens(Split(TokenText(e1) + ", " + TokenText(e2), ',')) == TokenTexts([e1, e2])
  {
    TokenSurface(e1);
    TokenSurface(e2);
    SpacedPair(TokenText(e1), TokenText(e2));
  }

  /** Two bare, comma-free tokens written as `A, B` give back the two tokens. */
  lemma SpacedPair(a: string, b: string)
    requires ',' !in a && HasTokenShape(a) && Strip(a) == a
    requires ',' !in b && HasTokenShape(b) && Strip(b) == b
    ensures Tokens(Split(a + ", " + b, ',')) == [a, b]
  {
    SplitSpaced(a, b);
    BareTokenPair(a, b);
  }

  lemma SplitSpaced(a: string, b: string)
    requires ',' !in a && ',' !in b
    ensures Split(a + ", " + b, ',') == [a, [' '] + b]
  {
    var second := [' '] + b;
    assert a + ", " + b == a + [','] + second;
    SplitCons(a, ',', second);
    assert ',' !in second;
    assert Split(second, ',') == [second];
  }

  lemma BareTokenPair(a: string, b: string)
    requires HasTokenShape(a) && Strip(a) == a
    requires HasTokenShape(b) && Strip(b) == b
    ensures Tokens([a, [' '] + b]) == [a, b]
  {
    StripLeadingSpace(b);
    TokensCons(a, [[' '] + b]);
    assert Tokens([[' '] + b]) == [b];
  }

  /** The update body `[H:7;M:30;F:150], [H:18;M:0;F:50]` installs its two entries. */
  lemma TwoEntryBody()
    ensures Parse("[H:7;M:30;F:150], [H:18;M:0;F:50]")
      == ParseResult([Entry(7, 30, 150), Entry(18, 0, 50)], Received)
  {
    TwoEntryText();
    TwoTokensWithSpace(Entry(7, 30, 150), Entry(18, 0, 50));
  }

  lemma TwoEntryText()
    ensures TokenText(Entry(7, 30, 150)) + ", " + TokenText(Entry(18, 0, 50))
      == "[H:7;M:30;F:150], [H:18;M:0;F:50]"
  {
    MorningToken();
    EveningToken();
  }
}

=== FILE: text.dfy ===
/**
 * The pieces of Python's `str` behaviour that the schedule parser relies on:
 * `split(sep)`, `strip()`, `rstrip(chars)`, `str(n)` and `int(text)`.
 */
module Text {
  import opened Wrappers

  /** Python's `str.isspace()` for one character (the set `strip()` with no argument removes). */
  predicate IsSpace(c: char) {
    var n := c as int;
    || n == 32
    || (9 <= n <= 13)
    || (28 <= n <= 31)
    || n == 0x85 || n == 0xA0 || n == 0x1680
    || (0x2000 <= n <= 0x200A)
    || n == 0x2028 || n == 0x2029 || n == 0x202F || n == 0x205F || n == 0x3000
  }

  predicate IsDigit(c: char) {
    '0' <= c <= '9'
  }

  // ---------------------------------------------------------------------------
  // split / join
  // ---------------------------------------------------------------------------

  /** Position of the first occurrence of `c` in `s`. */
  function IndexOf(s: string, c: char): (i: nat)
    requires c in s
    ensures i < |s| && s[i] == c
    ensures c !in s[..i]
  {
    if s[0] == c then 0
    else
      assert c in s[1..] by { var k :| 0 <= k < |s| && s[k] == c; assert s[1..][k - 1] == c; }
      var j := IndexOf(s[1..], c);
      assert s[..j + 1] == [s[0]] + s[1..][..j];
      j + 1
  }

  /** `sep.join(pieces)`; Python's `split` never yields an empty list, so neither is joined here. */
  function Join(pieces: seq<string>, sep: char): string
    requires |pieces| >= 1
    decreases |pieces|
  {
    if |pieces| == 1 then pieces[0] else pieces[0] + [sep] + Join(pieces[1..], sep)
  }

  /**
   * `s.split(sep)` for a one-character separator: the maximal pieces of `s` free of
   * `sep`, in order. There is always at least one piece (`SplitPieces` states the rest).
   */
  function Split(s: string, sep: char): (pieces: seq<string>)
    ensures |pieces| >= 1
    decreases |s|
  {
    if sep !in s then [s]
    else
      var i := IndexOf(s, sep);
      [s[..i]] + Split(s[i + 1..], sep)
  }

  /** The pieces of a split are free of the separator, and joining them gives the text back. */
  lemma {:induction false} SplitPieces(s: string, sep: char)
    ensures forall i :: 0 <= i < |Split(s, sep)| ==> sep !in Split(s, sep)[i]
    ensures Join(Split(s, sep), sep) == s
    ensures |Split(s, sep)| == 1 <==> sep !in s
    decreases |s|
  {
    if sep in s {
      var i := IndexOf(s, sep);
      var rest := Split(s[i + 1..], sep);
      SplitPieces(s[i + 1..], sep);
      var pieces := Split(s, sep);
      assert pieces == [s[..i]] + rest;
      assert pieces[1..] == rest;
      assert s == s[..i] + [sep] + s[i + 1..];
      forall k | 0 <= k < |pieces| ensures sep !in pieces[k] {
        if k > 0 { assert pieces[k] == rest[k - 1]; }
      }
    }
  }

  /** The first separator of `a + [sep] + b` is the one after `a` when `a` has none. */
  lemma {:induction false} IndexOfAfterPrefix(a: string, sep: char, b: string)
    requires sep !in a
    ensures sep in a + [sep] + b
    ensures IndexOf(a + [sep] + b, sep) == |a|
    decreases |a|
  {
    var s := a + [sep] + b;
    assert s[|a|] == sep;
    if a != [] {
      assert s[1..] == a[1..] + [sep] + b;
      IndexOfAfterPrefix(a[1..], sep, b);
    }
  }

  /** A separator-free head splits off as the first piece. */
  lemma SplitCons(a: string, sep: char, b: string)
    requires sep !in a
    ensures Split(a + [sep] + b, sep) == [a] + Split(b, sep)
  {
    var s := a + [sep] + b;
    IndexOfAfterPrefix(a, sep, b);
    assert s[..|a|] == a;
    assert s[|a| + 1..] == b;
  }

  /** Splitting two texts joined by the separator gives the pieces of each, in order. */
  lemma {:induction false} SplitAppend(a: string, sep: char, b: string)
    ensures Split(a + [sep] + b, sep) == Split(a, sep) + Split(b, sep)
    decreases |a|
  {
    if sep !in a {
      SplitCons(a, sep, b);
    } else {
      var i := IndexOf(a, sep);
      var head, rest := a[..i], a[i + 1..];
      assert a == head + [sep] + rest;
      calc {
        Split(a + [sep] + b, sep);
        { assert a + [sep] + b == head + [sep] + (rest + [sep] + b); }
        Split(head + [sep] + (rest + [sep] + b), sep);
        { SplitCons(head, sep, rest + [sep] + b); }
        [head] + Split(rest + [sep] + b, sep);
        { SplitAppend(rest, sep, b); }
        [head] + (Split(rest, sep) + Split(b, sep));
        ([head] + Split(rest, sep)) + Split(b, sep);
        { SplitCons(head, sep, rest); }
        Split(a, sep) + Split(b, sep);
      }
    }
  }

  /** Three separator-free pieces joined by the separator split back into those three. */
  lemma SplitThree(a: string, b: string, c: string, sep: char)
    requires sep !in a && sep !in b && sep !in c
    ensures Split(a + [sep] + (b + [sep] + c), sep) == [a, b, c]
  {
    SplitCons(a, sep, b + [sep] + c);
    SplitCons(b, sep, c);
    assert Split(c, sep) == [c];
  }

  /** Splitting a join of separator-free pieces gives back exactly those pieces. */
  lemma {:induction false} SplitJoin(pieces: seq<string>, sep: char)
    requires |pieces| >= 1
    requires forall i :: 0 <= i < |pieces| ==> sep !in pieces[i]
    ensures Split(Join(pieces, sep), sep) == pieces
    decreases |pieces|
  {
    if |pieces| > 1 {
      var tail := Join(pieces[1..], sep);
      assert Join(pieces, sep) == pieces[0] + [sep] + tail;
      SplitCons(pieces[0], sep, tail);
      SplitJoin(pieces[1..], sep);
      assert pieces == [pieces[0]] + pieces[1..];
    }
  }

  // ---------------------------------------------------------------------------
  // strip / rstrip
  // ---------------------------------------------------------------------------

  /**
   * The characters a strip removes: whitespace as `strip()` sees it, whitespace as
   * `int()` skips it around a number, or one given character (`rstrip(c)`).
   */
  datatype CharClass = Whitespace | NumberSpace | Only(c: char)

  /**
   * The whitespace `int()` skips: ASCII tab through carriage return and space, and the
   * non-ASCII whitespace. The ASCII separators U+001C..U+001F count for `isspace()` and
   * `strip()` but not here.
   */
  predicate IsNumberSpace(c: char) {
    IsSpace(c) && !(28 <= c as int <= 31)
  }

  predicate InClass(cls: CharClass, c: char) {
    match cls
    case Whitespace => IsSpace(c)
    case NumberSpace => IsNumberSpace(c)
    case Only(d) => c == d
  }

  /** Drops the longest prefix of `s` whose characters all belong to `drop`. */
  function TrimLeft(s: string, drop: CharClass): string
    decreases |s|
  {
    if |s| > 0 && InClass(drop, s[0]) then TrimLeft(s[1..], drop) else s
  }

  /** Drops the longest suffix of `s` whose characters all belong to `drop` (`s.rstrip(chars)`). */
  function TrimRight(s: string, drop: CharClass): string
    decreases |s|
  {
    if |s| > 0 && InClass(drop, s[|s| - 1]) then TrimRight(s[..|s| - 1], drop) else s
  }

  /**
   * `TrimLeft` keeps a suffix: everything it dropped is in the class, and what it kept
   * does not start with a character of the class.
   */
  lemma {:induction false} TrimLeftKeepsSuffix(s: string, drop: CharClass)
    ensures var r := TrimLeft(s, drop);
      && |r| <= |s| && r == s[|s| - |r|..]
      && (forall k :: 0 <= k < |s| - |r| ==> InClass(drop, s[k]))
      && (r == [] || !InClass(drop, r[0]))
    decreases |s|
  {
    if |s| > 0 && InClass(drop, s[0]) {
      TrimLeftKeepsSuffix(s[1..], drop);
      var r := TrimLeft(s, drop);
      assert r == TrimLeft(s[1..], drop);
      forall k | 0 < k < |s| - |r| ensures InClass(drop, s[k]) {
        assert s[k] == s[1..][k - 1];
      }
    }
  }

  /**
   * `TrimRight` keeps a prefix: everything it dropped is in the class, and what it kept
   * does not end with a character of the class.
   */
  lemma {:induction false} TrimRightKeepsPrefix(s: string, drop: CharClass)
    ensures var r := TrimRight(s, drop);
      && |r| <= |s| && r == s[..|r|]
      && (forall k :: |r| <= k < |s| ==> InClass(drop, s[k]))
      && (r == [] || !InClass(drop, r[|r| - 1]))
    decreases |s|
  {
    if |s| > 0 && InClass(drop, s[|s| - 1]) {
      TrimRightKeepsPrefix(s[..|s| - 1], drop);
      var r := TrimRight(s, drop);
      assert r == TrimRight(s[..|s| - 1], drop);
      forall k | |r| <= k < |s| - 1 ensures InClass(drop, s[k]) {
        assert s[k] == s[..|s| - 1][k];
      }
    }
  }

  /** `s.strip()`: the part of `s` between its leading and trailing whitespace. */
  function Strip(s: string): string {
    TrimRight(TrimLeft(s, Whitespace), Whitespace)
  }

  /** `(s + c).rstrip(c)` is `s` when `s` does not itself end in `c`. */
  lemma TrimRightOne(s: string, c: char)
    requires s == [] || s[|s| - 1] != c
    ensures TrimRight(s + [c], Only(c)) == s
  {
    assert (s + [c])[..|s|] == s;
  }

  /** One trailing `c` makes no difference to `rstrip(c)`. */
  lemma TrimRightAppend(s: string, c: char)
    ensures TrimRight(s + [c], Only(c)) == TrimRight(s, Only(c))
  {
    assert (s + [c])[..|s|] == s;
  }

  /** A leading space makes no difference to `strip()`. */
  lemma StripLeadingSpace(s: string)
    ensures Strip([' '] + s) == Strip(s)
  {
    assert ([' '] + s)[1..] == s;
  }

  /** A string that neither starts nor ends with a character of the class is left alone by trimming both ends. */
  lemma {:induction false} TrimUnchanged(s: string, drop: CharClass)
    requires s == [] || (!InClass(drop, s[0]) && !InClass(drop, s[|s| - 1]))
    ensures TrimRight(TrimLeft(s, drop), drop) == s
  {
  }

  /** A string that neither starts nor ends with whitespace is left alone by `strip()`. */
  lemma StripUnchanged(s: string)
    requires s == [] || (!IsSpace(s[0]) && !IsSpace(s[|s| - 1]))
    ensures Strip(s) == s
  {
    TrimUnchanged(s, Whitespace);
  }

  // ---------------------------------------------------------------------------
  // integers
  // ---------------------------------------------------------------------------

  function DigitValue(c: char): nat
    requires IsDigit(c)
  {
    c as int - '0' as int
  }

  function DigitChar(d: nat): (c: char)
    requires d < 10
    ensures IsDigit(c) && DigitValue(c) == d
  {
    ('0' as int + d) as char
  }

  predicate AllDigits(s: string) {
    forall k :: 0 <= k < |s| ==> IsDigit(s[k])
  }

  /** The value of a string of decimal digits, most significant first. */
  function DigitsValue(s: string): nat
    requires AllDigits(s)
    decreases |s|
  {
    if s == [] then 0 else DigitsValue(s[..|s| - 1]) * 10 + DigitValue(s[|s| - 1])
  }

  /**
   * The body Python's `int()` accepts after an optional sign: digits, with single
   * underscores allowed between digits.
   */
  predicate IsDigitGroups(s: string) {
    && |s| > 0
    && IsDigit(s[0])
    && IsDigit(s[|s| - 1])
    && (forall k :: 0 <= k < |s| ==> IsDigit(s[k]) || s[k] == '_')
    && (forall k :: 0 <= k < |s| - 1 ==> s[k] == '_' ==> s[k + 1] != '_')
  }

  function RemoveUnderscores(s: string): (r: string)
    requires forall k :: 0 <= k < |s| ==> IsDigit(s[k]) || s[k] == '_'
    ensures AllDigits(r)
    decreases |s|
  {
    if s == [] then []
    else if s[|s| - 1] == '_' then RemoveUnderscores(s[..|s| - 1])
    else RemoveUnderscores(s[..|s| - 1]) + [s[|s| - 1]]
  }

  /**
   * `int(text)` in base 10: surrounding whitespace (`IsNumberSpace`) is ignored, then
   * an optional `+` or `-`, then digit groups. Anything else is a `ValueError`,
   * modelled as `None`.
   */
  function ParseInt(text: string): Option<int> {
    ParseSigned(NumberStrip(text))
  }

  /** `text` without the leading and trailing whitespace `int()` skips. */
  function NumberStrip(text: string): string {
    TrimRight(TrimLeft(text, NumberSpace), NumberSpace)
  }

  /** `int()` on text already stripped of surrounding whitespace. */
  function ParseSigned(t: string): Option<int> {
    var signed := |t| > 0 && (t[0] == '-' || t[0] == '+');
    var body := if signed then t[1..] else t;
    if !IsDigitGroups(body) then None
    else
      var magnitude: int := DigitsValue(RemoveUnderscores(body));
      Some(if signed && t[0] == '-' then -magnitude else magnitude)
  }

  /** `str(n)` for a natural number: its decimal digits without leading zeros. */
  function NatToString(n: nat): (s: string)
    ensures |s| > 0 && AllDigits(s)
    ensures DigitsValue(s) == n
    ensures |s| > 1 ==> s[0] != '0'
  {
    if n < 10 then [DigitChar(n)]
    else
      var prefix := NatToString(n / 10);
      var s := prefix + [DigitChar(n % 10)];
      assert s[..|s| - 1] == prefix;
      s
  }

  /** `str(n)` for any integer. */
  function IntToString(n: int): (s: string)
    ensures |s| > 0
    ensures forall k :: 0 <= k < |s| ==> IsDigit(s[k]) || (k == 0 && s[k] == '-')
    ensures IsDigit(s[|s| - 1])
  {
    if n < 0 then "-" + NatToString(-n) else NatToString(n)
  }

  lemma {:induction false} RemoveUnderscoresOfDigits(s: string)
    requires AllDigits(s)
    ensures RemoveUnderscores(s) == s
    decreases |s|
  {
    if s != [] {
      RemoveUnderscoresOfDigits(s[..|s| - 1]);
    }
  }

  /** A digit string read back by `int()` gives its own value. */
  lemma {:induction false} DigitsParse(digits: string)
    requires |digits| > 0 && AllDigits(digits)
    ensures ParseSigned(digits) == Some(DigitsValue(digits))
    ensures ParseSigned("-" + digits) == Some(-(DigitsValue(digits) as int))
  {
    assert IsDigitGroups(digits);
    RemoveUnderscoresOfDigits(digits);
    assert ("-" + digits)[1..] == digits;
  }

  /** `str(n)` carries no surrounding whitespace of either kind. */
  lemma StripIntToString(n: int)
    ensures Strip(IntToString(n)) == IntToString(n)
    ensures NumberStrip(IntToString(n)) == IntToString(n)
  {
    var digits := NatToString(if n < 0 then -n else n);
    var s := IntToString(n);
    assert s[|s| - 1] == digits[|digits| - 1];
    assert !IsSpace(s[0]) && !IsSpace(s[|s| - 1]);
    StripUnchanged(s);
    TrimUnchanged(s, NumberSpace);
  }

  /**
   * `int()` is stricter than `strip()`: a number behind a file separator (U+001C) is
   * refused, though `strip()` would remove the separator.
   */
  lemma SeparatorNotSkipped()
    ensures Strip([28 as char, '7']) == "7"
    ensures ParseInt([28 as char, '7']).None?
    ensures ParseInt([' ', '7', '\n']) == Some(7)
  {
    var t := [28 as char, '7'];
    assert t[1..] == "7";
    assert IsSpace(t[0]) && TrimLeft(t, Whitespace) == TrimLeft("7", Whitespace);
    StripUnchanged("7");
    TrimUnchanged(t, NumberSpace);
    assert !IsDigit(t[0]);
    var u := [' ', '7', '\n'];
    assert u[1..] == ['7', '\n'];
    assert ['7', '\n'][..1] == "7";
    assert DigitsValue("7") == 7;
  }

  /** `int(str(n)) == n`: the decimal text the model writes is read back unchanged. */
  lemma ParseIntOfIntToString(n: int)
    ensures ParseInt(IntToString(n)) == Some(n)
  {
    StripIntToString(n);
    DigitsParse(NatToString(if n < 0 then -n else n));
  }
}

=== FILE: wrappers.dfy ===
/** Small failure-carrying datatypes shared by the other modules. */
module Wrappers {

  /** A value that may be missing (a Python `IndexError` or `ValueError` site yields `None`). */
  datatype Option<+T> = None | Some(value: T)

  /** Either a value or the error that stopped its computation. */
  datatype Result<+T, +E> = Ok(value: T) | Err(error: E)
}
